=== FILE: README.md ===
# Adbiz backend: account, shop and follow-ledger core in Dafny

This project models the core of the Adbiz Go backend:

- **Follow ledger.** `HandleFav` appends the target's mobile to the follower's `Fav1` row (following). It appends the follower's mobile to the target's `Fav2` row (followers). Both writes happen in one transaction.
- **Account and shop lifecycle.** Mobile verification, two-step registration, owner-only reads and partial updates, soft delete and reactivation.
- **`AuthMiddleware`.** It turns an `Authorization: Bearer <id>` header into a `user_id`.
- **Redis cache helpers.** These are user entries and registration drafts, each with its own time to live.
- **Unique indexes.** These are the ones the gorm models declare.

Modelling choices:

- **The database** is a `Store` value. Each table is a sequence in primary-key order. gorm's `First` is the first matching index. A soft delete is a `deletedAt` mark. The default scope skips marked rows and `Unscoped` does not.
- **A handler** is a pure function from the store, the request and an `Env` to a `Reply`: the status and payload, plus the store it leaves behind.
- **The `Env`** carries the authenticated `user_id`, the clock, the set of store writes that fail, whether the token signer works and whether Redis answers.
- **Write failures.** A write fails when its step is in `Env.faults` or when it would break a unique index. A failure inside a transaction returns the old store, which is the rollback.

| file | module | source |
|---|---|---|
| wrappers.dfy | `Wrappers` | `Option`, `Result` |
| digits.dfy | `Digits` | decimal text, `strconv.ParseUint(s, 10, 32)` and `strconv.Atoi` |
| models.dfy | `Models` | models/models.go: rows and unique indexes |
| db.dfy | `Db` | gorm lookups (`First`, default scope, `Unscoped`) and writes |
| http.dfy | `Http` | statuses, payloads, transaction commit |
| cache.dfy | `Cache` | cache/cache.go |
| middleware_auth.dfy | `AuthMiddleware` | middleware/auth.go |
| fav_deal.dfy | `FavDeal` | handlers/fav_deal.go |
| auth_mobile.dfy | `AuthMobile` | handlers/auth_mobile.go |
| auth_user.dfy | `AuthUser` | handlers/auth_user.go |
| auth_delete.dfy | `AuthDelete` | handlers/auth_delete.go |
| auth_reactivate.dfy | `AuthReactivate` | handlers/auth_reactivate.go |
| auth_favs.dfy | `AuthFavs` | handlers/auth_favs.go |

## Model

| member | source | states |
|---|---|---|
| Digits.Decimal | cache/cache.go:39 | the canonical decimal spelling of a number: at least one digit and no leading zero except for "0" |
| Digits.ValueOfDecimal | cache/cache.go:39 | reading back the decimal spelling of n gives n |
| Digits.DecimalInjective | cache/cache.go:39 | two numbers with the same decimal spelling are equal |
| Digits.ValueLeadingZero | middleware/auth.go:30 | a leading zero does not change the value of a digit string |
| Digits.ParseUint32Decimal | middleware/auth.go:30 | `ParseUint(s, 10, 32)` accepts the spelling of n exactly when n fits in 32 bits, and returns n |
| Digits.ParseUint32 | middleware/auth.go:30 | `ParseUint(s, 10, 32)` accepts exactly the non-empty all-digit strings whose value fits in 32 bits, returns that value, and refuses "" and any string with a non-digit |
| Digits.Atoi | cache/cache.go:19 | `Atoi` accepts an optional '+' or '-' and then digits in the int64 range, returning the signed value; "", "+", "-" and a sign followed by a non-digit are refused |
| Digits.AtoiDecimal | cache/cache.go:19 | `Atoi` returns n for the spelling of any n in the int64 range |
| Db.FindUser | handlers/auth_user.go:44 | `First` by mobile returns the lowest row that matches and is visible in the scope, and none exactly when no row matches |
| Db.FindUserUnique | models/models.go:11 | under the unique mobile index, the lookup finds the one row holding that mobile |
| Db.LookupUser | handlers/auth_user.go:44 | the lookup returns a row of the table holding the mobile and visible in the scope, and nothing exactly when there is none |
| Db.FindShop | handlers/auth_user.go:100 | `First` by owner returns the lowest matching shop row, and none exactly when the owner has none |
| Db.FindShopUnique | models/models.go:27 | under the one-shop-per-user index, the lookup finds that user's shop |
| Db.FindFav | handlers/fav_deal.go:72 | `First` on a follow table returns the lowest row of the user, and none exactly when the user has none |
| Db.FindFavAppend | handlers/fav_deal.go:81 | appending a row changes only the lookup of an owner that had no row, which then finds the appended row |
| Db.ListOf | handlers/fav_deal.go:72-80 | a user without a follow row reads as an empty list; under one row per user, a user's row gives its list |
| Db.CountOf | handlers/fav_deal.go:72-80 | a user without a follow row reads as count 0; under one row per user, a user's row gives its count |
| Db.InsertUser | models/models.go:11 | a user insert succeeds exactly when no row, deleted or not, holds the mobile; it appends the row with the next ID and keeps the indexes |
| Db.SaveUser | models/models.go:11 | saving a user fails on a mobile another row holds, otherwise replaces only that row |
| Db.InsertShop | models/models.go:20 | a shop insert succeeds exactly when neither its shop ID nor its owner occurs in any row, deleted or not |
| Db.SaveShop | models/models.go:27 | saving a shop replaces only that row and keeps both shop indexes |
| Db.MarkUser | handlers/auth_delete.go:51 | setting `deleted_at` changes only that column of that row and keeps every index |
| Db.MarkShop | handlers/auth_delete.go:61 | setting a shop's `deleted_at` changes only that column of that row and keeps every index |
| Db.InsertFav | models/models.go:35 | a follow-row insert fails when the user already has a row, which keeps one row per user |
| Http.CommitReply | handlers/auth_delete.go:70-77 | a failed commit answers 500 and keeps the old store; otherwise the transaction's store and answer stand |
| Cache.ExpirationMinutes | cache/cache.go:18-24 | the TTL setting is positive; it is the parsed setting whenever that is a positive integer, and 30 minutes otherwise |
| Cache.ExpirationFromSetting | cache/cache.go:19-23 | any positive int64 setting is taken as is |
| Cache.ExpirationFallback | cache/cache.go:20-21 | an unparsable, zero or negative setting falls back to 30 minutes |
| Cache.DefaultExpiration | cache/cache.go:18-24 | the intended user-entry TTL is a positive whole number of minutes equal to the setting |
| Cache.DefaultExpirationAsWritten | cache/cache.go:18-24 | the TTL as the int64 product `time.Duration(n) * time.Minute` computes it |
| Cache.AsWrittenAgreesBelowOverflow | cache/cache.go:18-24 | up to 153722867 minutes the int64 product equals the intended TTL |
| Cache.AsWrittenOverflows | cache/cache.go:18-24 | a setting of 153722868 minutes gives a negative TTL |
| Cache.UserKeyInjective | cache/cache.go:39 | distinct user IDs get distinct cache keys |
| Cache.KeysDisjoint | cache/cache.go:39 | with a user prefix that does not begin with "temp:user:", no user key equals a draft key |
| Cache.KeysCollide | cache/cache.go:72 | with a user prefix that begins with "temp:user:", every user key is also the draft key of some mobile |
| Cache.UserKey | cache/cache.go:39 | a user key is the user prefix followed by a non-empty digit string whose value is the user's ID |
| Cache.TempKey | cache/cache.go:72 | a draft key is "temp:user:" followed by exactly the mobile |
| Cache.Put | cache/cache.go:40 | `Set` adds the key, stores the value with expiry now plus the TTL, and keeps every other key |
| Cache.Fetch | cache/cache.go:46 | `Get` hits exactly when the key holds an unexpired entry, and then returns its value |
| Cache.CacheUser | cache/cache.go:29-41 | a nil user is refused; otherwise, when Redis answers, only the user's key is written |
| Cache.CacheUserExpiry | cache/cache.go:18-40 | a cached user's entry expires after the intended TTL, which up to 153722867 minutes is the duration the source hands to Redis |
| Cache.GetCachedUser | cache/cache.go:44-57 | a read succeeds exactly when the user's key holds an unexpired entry, and returns that entry |
| Cache.InvalidateUserCache | cache/cache.go:60-63 | the user's key is removed and every other key kept |
| Cache.CacheTempUserInfo | cache/cache.go:66-74 | only the mobile's draft key is written |
| Cache.GetTempUserInfo | cache/cache.go:77-90 | a draft read succeeds exactly when the key holds an unexpired entry |
| Cache.RemoveTempUserInfo | cache/cache.go:93-96 | the draft key is removed and every other key kept |
| Cache.CachedUserReadBack | cache/cache.go:39-46 | a cached user reads back unchanged until the TTL runs out, and misses from then on |
| Cache.InvalidatedUserMisses | cache/cache.go:60-62 | after invalidation the user misses |
| Cache.TempUserReadBack | cache/cache.go:72-79 | a draft reads back unchanged for 15 minutes and misses from then on |
| Cache.RemovedTempUserMisses | cache/cache.go:94-95 | after removal the draft misses |
| Cache.NamespacesIsolated | cache/cache.go:39-95 | with a user prefix outside "temp:user:", draft writes never change a cached user, and user writes never change a draft |
| Cache.SameDigitsDoNotCollide | cache/cache.go:39-72 | user 9998887777 and the draft of mobile "9998887777" live under different keys |
| AuthMiddleware.Split | middleware/auth.go:22 | `strings.Split` gives at least one part, no part holds the separator, and joining the parts gives back the header |
| AuthMiddleware.SplitNoSeparator | middleware/auth.go:22 | a string without the separator splits into itself |
| AuthMiddleware.SplitFirstWord | middleware/auth.go:22 | splitting after a first word gives that word followed by the split of the rest |
| AuthMiddleware.TwoPartsIff | middleware/auth.go:22-23 | a header splits into exactly "Bearer" and one more part exactly when it is "Bearer " followed by a credential without spaces |
| AuthMiddleware.Authenticate | middleware/auth.go:13-38 | a missing header is told apart from the other failures, and an accepted ID fits in 32 bits |
| AuthMiddleware.AcceptedIff | middleware/auth.go:13-38 | a header is accepted with ID n exactly when it is "Bearer", one space, and a digit string worth n that fits in 32 bits |
| AuthMiddleware.BearerRoundTrip | middleware/auth.go:22-38 | "Bearer " followed by the decimal spelling of a 32-bit ID authenticates as that ID |
| AuthMiddleware.OverflowRefused | middleware/auth.go:30-35 | an ID above 4294967295 is refused as an invalid user ID |
| AuthMiddleware.LeadingZerosIgnored | middleware/auth.go:30 | "Bearer 007" authenticates as user 7 |
| AuthMiddleware.MalformedRefused | middleware/auth.go:22-27 | a lower-case scheme, a double space or a third word is an invalid format |
| AuthMiddleware.BadCredentialRefused | middleware/auth.go:30-35 | an empty credential or a signed one is an invalid user ID |
| AuthMiddleware.CredentialOf | middleware/auth.go:22 | "Bearer " followed by a word without spaces splits into the scheme and that word |
| FavDeal.UpdateFav | handlers/fav_deal.go:69-96 | a mobile already listed is a no-op that cannot fail; otherwise only a failed create or save fails |
| FavDeal.UpdateFavEffect | handlers/fav_deal.go:69-126 | the user's list gains the mobile at its end and its count grows by one, unless the mobile was already listed; every other user reads the same |
| FavDeal.UpdateFavKeepsRows | handlers/fav_deal.go:76-95 | counts stay equal to list lengths, lists stay free of duplicates, and there stays one row per user |
| FavDeal.HandleFav | handlers/fav_deal.go:19-66 | 400, 404 and 500 each exactly for their causes (500: a needed follow write fails or the commit fails); only the two follow tables change; every failure rolls back; success records both edges |
| FavDeal.HandleFavUsers | handlers/fav_deal.go:30-53 | a successful follow updates the first active rows of the two mobiles |
| FavDeal.HandleFavIdempotent | handlers/fav_deal.go:84-89 | repeating a successful follow changes nothing, whatever fails during the repetition |
| FavDeal.HandleFavKeepsLedger | handlers/fav_deal.go:19-126 | a follow keeps counts equal to lengths, lists free of duplicates, and every index |
| FavDeal.MutualAfterEdge | handlers/fav_deal.go:43-63 | writing one edge into both tables keeps following and followers two views of one edge set |
| FavDeal.HandleFavKeepsMutual | handlers/fav_deal.go:43-63 | B is in A's following list exactly when A is in B's followers list, before and after a follow |
| FavDeal.HandleFavOnlyAppends | handlers/fav_deal.go:93-94 | no follow is ever lost: each list before is a prefix of the list after |
| FavDeal.FollowersFailureRollsBack | handlers/fav_deal.go:53-57 | when the followers write is needed and fails, neither table changes |
| FavDeal.SelfFollowAccepted | handlers/fav_deal.go:28-65 | following oneself succeeds and lists one's own mobile in both of one's own rows |
| AuthMobile.CacheBestEffort | handlers/auth_mobile.go:41-43 | when Redis answers, only the user's key is written, with expiry now plus the user TTL, and the user reads back from it; otherwise the cache is untouched |
| AuthMobile.VerifyMobile | handlers/auth_mobile.go:24-64 | read-only; the answer says whether an active user holds the mobile and returns that user; 500 exactly when an active user holds the mobile and the signer fails; that user's cache entry is refreshed best-effort, and Redis is untouched otherwise |
| AuthMobile.RegisterBasicInfo | handlers/auth_mobile.go:81-124 | 400 on a failed binding, 409 exactly when an active user holds the mobile; 500 exactly when the insert fails (a fault, or a deleted row holding the mobile) or the signer fails; a failed insert writes neither the store nor the cache, whatever the signer does; whenever the insert succeeds the new user is appended, so a signer failure keeps the row, and the new user is cached best-effort |
| AuthMobile.DeletedMobileCannotRegister | handlers/auth_mobile.go:91-106 | a mobile held only by a deleted account passes the 409 check but fails on the unique index with 500 |
| AuthMobile.NewShop | handlers/auth_mobile.go:157-165 | the new shop's ID is product type, mobile, username and name concatenated, it is owned by the user, and it starts active |
| AuthMobile.RegisterSellerDetails | handlers/auth_mobile.go:126-196 | 400 exactly for a failed binding or a mobile without an active seller; 409 exactly when that seller has an active shop; 500 exactly when the insert fails (a fault, a taken shop ID, a deleted shop of the seller), the commit fails or the signer fails; a failed insert or commit writes neither the store nor the cache, whatever the signer does; when insert and commit succeed the new shop is appended, so a signer failure keeps it, and the seller is cached best-effort; users and follow tables are never written |
| AuthMobile.DeletedShopBlocksNewShop | handlers/auth_mobile.go:148-171 | a seller whose shop was soft-deleted passes the 409 check but gets 500 from the owner index |
| AuthMobile.TakenShopIdCreatesNothing | handlers/auth_mobile.go:157-171 | a shop ID already in use creates nothing |
| AuthMobile.ShopIdAmbiguous | handlers/auth_mobile.go:157 | product "a" with mobile "12" and product "a1" with mobile "2" give the same shop ID |
| AuthMobile.VerifyMobileCacheHarmless | handlers/auth_mobile.go:41-43 | a Redis outage does not change the answer of `VerifyMobile` |
| AuthMobile.RegisterBasicCacheHarmless | handlers/auth_mobile.go:108-110 | a Redis outage changes neither the answer nor the store of `RegisterBasicInfo` |
| AuthMobile.RegisterSellerCacheHarmless | handlers/auth_mobile.go:179-181 | a Redis outage changes neither the answer nor the store of `RegisterSellerDetails` |
| AuthUser.MergeUser | handlers/auth_user.go:159-174 | an update never changes a user's ID or delete mark |
| AuthUser.MergeUserFields | handlers/auth_user.go:159-174 | every non-empty or non-nil request field wins, and every other field keeps the stored value |
| AuthUser.MergeUserEmptyKeeps | handlers/auth_user.go:159-174 | an all-empty request leaves the user as stored |
| AuthUser.MergeUserNeverClears | handlers/auth_user.go:163-168 | a stored email or photo can be replaced but never cleared |
| AuthUser.MergeUserIdempotent | handlers/auth_user.go:159-174 | applying a request twice equals applying it once |
| AuthUser.MergeShop | handlers/auth_user.go:242-259 | an update never changes a shop's ID, owner or delete mark |
| AuthUser.MergeShopFields | handlers/auth_user.go:242-259 | every non-empty or non-nil shop field wins, and every other field keeps the stored value |
| AuthUser.MergeShopEmptyKeeps | handlers/auth_user.go:242-259 | an all-empty shop request leaves the shop as stored |
| AuthUser.Register | handlers/auth_user.go:13-21 | the legacy endpoint answers 200 and touches nothing |
| AuthUser.GetUser | handlers/auth_user.go:24-58 | read-only; 400, 401 and 404 exactly for their causes; 403 for another user's record; 200 returns the caller's own active record |
| AuthUser.GetUserOwnerOnly | handlers/auth_user.go:44-57 | under the indexes, the record is returned exactly when the caller owns the active user with that mobile |
| AuthUser.GetShopByUserMobile | handlers/auth_user.go:61-109 | read-only; 400, 401 and 403 exactly when `GetUser` gives them; 404 exactly for an unknown mobile or an owner without an active shop; otherwise the caller's active shop |
| AuthUser.UpdateUser | handlers/auth_user.go:121-185 | 404 before 401; 403 exactly for someone else's record; 500 exactly when the owner's save fails (a fault, or another row holding the merged mobile); success saves the merged record in place; every failure leaves the store unchanged and the indexes hold |
| AuthUser.UnauthenticatedUnknownMobile | handlers/auth_user.go:36-47 | without `user_id`, an unknown mobile reads as 401 but updates as 404 |
| AuthUser.UpdateToTakenMobileFails | handlers/auth_user.go:169-179 | changing one's mobile to one another row holds, even a deleted row, fails on the unique index with 500 and saves nothing |
| AuthUser.EmptyUpdateChangesNothing | handlers/auth_user.go:159-180 | an empty update leaves the store exactly as it was |
| AuthUser.UpdateShop | handlers/auth_user.go:197-270 | the guards of `UpdateUser`, each exactly for its cause, then 404 exactly when the owner has no active shop; 500 exactly when the save fails; success saves the merged shop in place; users never change |
| AuthUser.UpdateShopFailsOnlyOnFault | handlers/auth_user.go:237-265 | under the indexes the merged shop never clashes, so the owner's update fails exactly on a write fault and succeeds otherwise |
| AuthUser.UpdateShopNeedsActiveShop | handlers/auth_user.go:235-240 | an owner without an active shop gets 404 and nothing is saved |
| AuthDelete.DeleteUser | handlers/auth_delete.go:13-78 | each status exactly for its causes (500: the account write, the active shop's write or the commit fails); success marks only the caller's account and, for a seller, the active shop, at the request time, leaving the shops of a buyer or of a seller without an active shop untouched; the indexes hold |
| AuthDelete.DeletedUserHidden | handlers/auth_delete.go:51 | under the mobile index, a marked account is no longer found by the default scope |
| AuthDelete.DeletedShopHidden | handlers/auth_delete.go:61 | under the owner index, a marked shop is no longer found by the default scope |
| AuthDelete.DeleteUserSucceeds | handlers/auth_delete.go:36-77 | without faults, the owner of an active account can always delete it |
| AuthDelete.DeleteShop | handlers/auth_delete.go:81-153 | each status exactly for its causes (500: the shop write or the commit fails); success marks only the caller's active shop and never touches users |
| AuthReactivate.ReactivateUser | handlers/auth_reactivate.go:12-69 | no `user_id` is read; 404 exactly for an unknown mobile, 400 exactly for an active account, 500 exactly when a needed write or the commit fails; success unmarks the account and, for a seller, the first shop row, which is then active |
| AuthReactivate.ReactivateUserSucceeds | handlers/auth_reactivate.go:28-68 | without faults, every soft-deleted account can be reactivated |
| AuthReactivate.ReactivateUserIgnoresCaller | handlers/auth_reactivate.go:12-69 | the answer and the store do not depend on the authenticated `user_id`: anyone may reactivate any account |
| AuthReactivate.ReactivateShopIgnoresCaller | handlers/auth_reactivate.go:72-135 | the answer and the store do not depend on the authenticated `user_id` |
| AuthReactivate.ReactivateShop | handlers/auth_reactivate.go:72-135 | 400 exactly for an empty mobile, a non-seller or an already active shop; 404 exactly for a missing or deleted owner or a seller without a shop row; 500 exactly when the write or the commit fails; success unmarks only the seller's inactive shop and never touches users |
| AuthReactivate.DeleteUserStore | handlers/auth_delete.go:49-67 | the owner's successful delete leaves exactly the account marked, and for a seller the active shop marked too |
| AuthReactivate.ReactivateDeactivated | handlers/auth_reactivate.go:28-68 | reactivating an account that delete marked restores the store: always for a buyer, and for a seller whose shop, if any, was active |
| AuthReactivate.DeleteThenReactivateUser | handlers/auth_reactivate.go:12-69 | deleting an account and reactivating it restores the store for a buyer, and for a seller whose shop, if any, was active |
| AuthReactivate.DeleteThenReactivateRevivesShop | handlers/auth_reactivate.go:50-60 | for a seller whose shop was already deleted, the round trip reactivates that shop as well, so the store is not restored |
| AuthReactivate.DeleteThenReactivateShop | handlers/auth_reactivate.go:72-135 | deleting a shop and reactivating it restores the store exactly |
| AuthReactivate.DeletedOwnerBlocksShopReactivation | handlers/auth_reactivate.go:87-91 | after its owner's account is deleted, a shop cannot be reactivated on its own: the answer is 404 |
| AuthFavs.GetFavs | handlers/auth_favs.go:10-50 | read-only; 404 exactly for an unknown mobile or a missing following row; 200 returns the user's following row |
| AuthFavs.GetFavsIgnoresFollowers | handlers/auth_favs.go:33-38 | the favs answer reads only the following table, never the followers table |
| AuthFavs.DeletedAccountFavsReadable | handlers/auth_favs.go:25-30 | a soft-deleted account's following row stays readable |
| AuthFavs.FollowShowsInFavs | handlers/auth_favs.go:33-49 | after a successful follow, the follower's favs answer lists the target |

## Left out

- Token issuing is not part of this model. `GenerateToken` and the JWT library behind it (handlers/auth_token.go) are reduced to `Env.signerUp`, a flag that says whether signing succeeds. The token text is not modelled.
- Login (handlers/auth_login.go), the router (router/routes.go) and the `FavHandler` constructor (handlers/fav.go) are not part of this model.
- The rate limiter (`<-h.rateLimit.C`) is left out. It only delays a request.
- JSON decoding is reduced to the outcome of gin's `binding` tags. Only `required` and `oneof=buyer seller` are checked. A malformed body is not modelled separately. The body-binding 400 in `UpdateUser` and `UpdateShop` is not modelled; their requests are taken as already decoded.
- JSON encoding and decoding of cached users is taken as the identity. A marshal or unmarshal failure cannot be expressed.
- `time.Now()` is the parameter `Env.now`, and Redis's clock is a nanosecond integer parameter.
- Database reads never fail in the model. The "Failed to find shop" 500 in `DeleteShop` and `ReactivateShop` therefore cannot occur. Only writes and commits fail.
- A failed user insert does not advance the ID sequence in the model. Postgres does advance it.
- Foreign keys with `ON DELETE CASCADE` are not modelled. No handler hard-deletes a row.
- Follow rows carry no `deleted_at` because no handler marks them.
- The `CreatedAt` and `UpdatedAt` columns that `gorm.Model` adds to every table (models/models.go:10, 19, 32, 40) are not modelled. No handler reads them, and their values come from the clock.
- Concurrency between requests is not modelled. Each handler runs on its own, and a transaction is atomic.
- `PostCachePrefix` is not used by any modelled function, and `fmt.Println` and `log.Printf` are output only.
- `UpdateShop` returns the shop under the JSON key "user". The model only records that the payload is the shop.
- `RegisterBasicInfo` and `RegisterSellerDetails` generate the token after the row is written and outside any transaction. A signer failure answers 500 but keeps the new row, and the model does the same.
- `Cache.CacheUser` writes the entry with the corrected TTL `DefaultExpiration`, not the wrapped int64 product the source passes (see Findings). Up to 153722867 minutes the two agree (`Cache.CacheUserExpiry`); above that, how the Redis client treats a negative TTL is not modelled.
- `Cache.CachedUserReadBack` is stated for the corrected TTL, for the same reason.
- `Cache.CacheUser` also does not model a write that Redis refuses for a reason other than an outage; `up` covers every such error.
- `AuthMiddleware.Authenticate` returns the ID as an unbounded `nat` below 2^32. The `uint` conversion in the source cannot change it.
- `FavDeal.HandleFav` takes the fault set directly instead of an `Env`, because the follow handler reads neither the caller, the clock nor the cache.

## Findings

| source | as written | input that shows it | evidently intended | confidence | as-written member | corrected member |
|---|---|---|---|---|---|---|
| cache/cache.go:18-24 | `time.Duration(exp) * time.Minute` is an int64 product that wraps silently | `REDIS_CACHE_EXPIRATION=153722868` gives a TTL of -9223371993709551616 ns, not 153722868 minutes | a TTL of `exp` minutes for every accepted positive setting, or a cap on the setting | not executed | Cache.DefaultExpirationAsWritten (see Cache.AsWrittenOverflows) | Cache.DefaultExpiration |

=== FILE: auth_delete.dfy ===
/** The soft-delete handlers of `handlers/auth_delete.go`. Deleting a seller
    cascades to the seller's active shop; every failure rolls back. */
module AuthDelete {
  import opened Wrappers
  import opened Models
  import opened Db
  import opened Http
  import opened AuthUser

  /** `DeleteUser`: empty mobile 400, no `user_id` 401, no active user 404,
      someone else's account 403; then the account, and for a seller the active
      shop, are marked deleted at `env.now` in one transaction. */
  function DeleteUser(s: Store, mobile: string, env: Env): (r: Reply)
    ensures r.resp.status in {OK, BadRequest, Unauthorized, NotFound, Forbidden, InternalServerError}
    ensures r.resp.status != OK ==> r.store == s
    ensures r.resp.status == BadRequest <==> mobile == ""
    ensures r.resp.status == Unauthorized <==> mobile != "" && env.auth.None?
    ensures r.resp.status == NotFound <==> mobile != "" && env.auth.Some? && !HasUser(s.users, mobile, Scoped)
    ensures r.resp.status == Forbidden <==>
      mobile != "" && env.auth.Some? && LookupUser(s.users, mobile, Scoped).Some? && LookupUser(s.users, mobile, Scoped).value.id != env.auth.value
    ensures r.resp.status == InternalServerError ==> env.faults != {}
    ensures r.resp.status == InternalServerError <==>
      && CallerOwns(s, mobile, env)
      && (|| WriteUser in env.faults
          || (&& LookupUser(s.users, mobile, Scoped).value.role == Seller
              && HasShop(s.shops, env.auth.value, Scoped)
              && WriteShop in env.faults)
          || Step.Commit in env.faults)
    ensures r.resp.status == OK ==>
      && LookupUser(s.users, mobile, Scoped).Some?
      && env.auth == Some(LookupUser(s.users, mobile, Scoped).value.id)
      && UsersRemarked(s.users, r.store.users, env.auth.value, Some(env.now))
      && ShopsRemarked(s.shops, r.store.shops, env.auth.value, Some(env.now))
      && (LookupUser(s.users, mobile, Scoped).value.role != Seller || !HasShop(s.shops, env.auth.value, Scoped) ==> r.store.shops == s.shops)
      && r.store.following == s.following && r.store.followers == s.followers
      && r.store.nextUserId == s.nextUserId
    ensures r.resp.status == OK && WellFormed(s) ==>
      && !HasUser(r.store.users, mobile, Scoped)
      && (LookupUser(s.users, mobile, Scoped).value.role == Seller ==> !HasShop(r.store.shops, env.auth.value, Scoped))
    ensures WellFormed(s) ==> WellFormed(r.store)
  {
    if mobile == "" then Abort(s, BadRequest)
    else if env.auth.None? then Abort(s, Unauthorized)
    else match FindUser(s.users, mobile, Scoped)
      case None => Abort(s, NotFound)
      case Some(i) =>
        var u := s.users[i];
        if u.id != env.auth.value then Abort(s, Forbidden)
        else match MarkUser(s, i, Some(env.now), WriteUser in env.faults)
          case Failure(_) => Abort(s, InternalServerError)
          case Success(s1) =>
            assert UsersRemarked(s.users, s1.users, u.id, Some(env.now));
            if u.role != Seller then
              DeletedUserHidden(s.users, i, env.now);
              CommitReply(s, s1, env, OK, Message)
            else match FindShop(s1.shops, u.id, Scoped)
              case None =>
                DeletedUserHidden(s.users, i, env.now);
                CommitReply(s, s1, env, OK, Message)
              case Some(j) =>
                match MarkShop(s1, j, Some(env.now), WriteShop in env.faults)
                case Failure(_) => Abort(s, InternalServerError)
                case Success(s2) =>
                  assert ShopsRemarked(s.shops, s2.shops, u.id, Some(env.now));
                  DeletedUserHidden(s.users, i, env.now);
                  DeletedShopHidden(s1.shops, j, env.now);
                  CommitReply(s, s2, env, OK, Message)
  }

  /** Once the only row with a mobile is marked deleted, the scoped lookup no longer finds it. */
  lemma DeletedUserHidden(users: seq<User>, i: nat, t: Stamp)
    requires i < |users|
    ensures UniqueMobiles(users) ==> !HasUser(users[i := users[i].(deletedAt := Some(t))], users[i].mobile, Scoped)
  {
    var after := users[i := users[i].(deletedAt := Some(t))];
    if UniqueMobiles(users) {
      forall k | 0 <= k < |after| ensures !UserMatches(after[k], users[i].mobile, Scoped) {
        if k != i {
          assert users[k].mobile != users[i].mobile;
        }
      }
    }
  }

  /** Once the only shop of an owner is marked deleted, the scoped lookup no longer finds it. */
  lemma DeletedShopHidden(shops: seq<Shop>, j: nat, t: Stamp)
    requires j < |shops|
    ensures UniqueShopOwners(shops) ==> !HasShop(shops[j := shops[j].(deletedAt := Some(t))], shops[j].userId, Scoped)
  {
    var after := shops[j := shops[j].(deletedAt := Some(t))];
    if UniqueShopOwners(shops) {
      forall k | 0 <= k < |after| ensures !ShopMatches(after[k], shops[j].userId, Scoped) {
        if k != j {
          assert shops[k].userId != shops[j].userId;
        }
      }
    }
  }

  /** With no fault injected, the owner of an active account can always delete it. */
  lemma DeleteUserSucceeds(s: Store, mobile: string, env: Env)
    requires mobile != "" && LookupUser(s.users, mobile, Scoped).Some?
    requires env.auth == Some(LookupUser(s.users, mobile, Scoped).value.id)
    requires env.faults == {}
    ensures DeleteUser(s, mobile, env).resp.status == OK
  {
  }

  /** `DeleteShop`: the guards of `DeleteUser`, then 400 for a caller who is not
      a seller and 404 when the seller has no active shop; the shop is marked
      deleted at `env.now` and the account is left as it was. */
  function DeleteShop(s: Store, mobile: string, env: Env): (r: Reply)
    ensures r.resp.status in {OK, BadRequest, Unauthorized, NotFound, Forbidden, InternalServerError}
    ensures r.resp.status != OK ==> r.store == s
    ensures r.resp.status == Unauthorized <==> mobile != "" && env.auth.None?
    ensures mobile != "" && env.auth.Some? && !HasUser(s.users, mobile, Scoped) ==> r.resp.status == NotFound
    ensures r.resp.status == NotFound <==>
      && mobile != "" && env.auth.Some?
      && (|| !HasUser(s.users, mobile, Scoped)
          || (&& LookupUser(s.users, mobile, Scoped).value.id == env.auth.value
              && LookupUser(s.users, mobile, Scoped).value.role == Seller
              && !HasShop(s.shops, env.auth.value, Scoped)))
    ensures r.resp.status == Forbidden <==>
      mobile != "" && env.auth.Some? && LookupUser(s.users, mobile, Scoped).Some? && LookupUser(s.users, mobile, Scoped).value.id != env.auth.value
    ensures r.resp.status == BadRequest <==>
      mobile == "" ||
      (env.auth.Some? && LookupUser(s.users, mobile, Scoped).Some? && LookupUser(s.users, mobile, Scoped).value.id == env.auth.value
       && LookupUser(s.users, mobile, Scoped).value.role != Seller)
    ensures r.resp.status == InternalServerError ==> env.faults != {}
    ensures r.resp.status == InternalServerError <==>
      && CallerOwns(s, mobile, env)
      && LookupUser(s.users, mobile, Scoped).value.role == Seller
      && HasShop(s.shops, env.auth.value, Scoped)
      && (WriteShop in env.faults || Step.Commit in env.faults)
    ensures r.resp.status == OK ==>
      && LookupUser(s.users, mobile, Scoped).Some?
      && LookupUser(s.users, mobile, Scoped).value.role == Seller
      && env.auth == Some(LookupUser(s.users, mobile, Scoped).value.id)
      && HasShop(s.shops, env.auth.value, Scoped)
      && r.store.users == s.users
      && ShopsRemarked(s.shops, r.store.shops, env.auth.value, Some(env.now))
      && r.store.following == s.following && r.store.followers == s.followers
    ensures r.resp.status == OK && WellFormed(s) ==> !HasShop(r.store.shops, env.auth.value, Scoped)
    ensures WellFormed(s) ==> WellFormed(r.store)
  {
    if mobile == "" then Abort(s, BadRequest)
    else if env.auth.None? then Abort(s, Unauthorized)
    else match FindUser(s.users, mobile, Scoped)
      case None => Abort(s, NotFound)
      case Some(i) =>
        var u := s.users[i];
        if u.id != env.auth.value then Abort(s, Forbidden)
        else if u.role != Seller then Abort(s, BadRequest)
        else match FindShop(s.shops, u.id, Scoped)
          case None => Abort(s, NotFound)
          case Some(j) =>
            match MarkShop(s, j, Some(env.now), WriteShop in env.faults)
            case Failure(_) => Abort(s, InternalServerError)
            case Success(s1) =>
              assert ShopsRemarked(s.shops, s1.shops, u.id, Some(env.now));
              DeletedShopHidden(s.shops, j, env.now);
              CommitReply(s, s1, env, OK, Message)
  }
}

=== FILE: auth_favs.dfy ===
/** `GetFavs` of `handlers/auth_favs.go`: the caller-independent read of a
    user's following row. It looks the user up without the soft-delete scope,
    so a deleted account's follows stay readable. */
module AuthFavs {
  import opened Wrappers
  import opened Models
  import opened Db
  import opened Http
  import FavDeal

  /** Empty mobile 400, no row with that mobile 404, no following row 404, a
      failed commit 500, otherwise the user's `Fav1` row. Only the following
      table is read, and the store is never written. */
  function GetFavs(s: Store, mobile: string, env: Env): (r: Response)
    ensures r.status in {OK, BadRequest, NotFound, InternalServerError}
    ensures r.status == BadRequest <==> mobile == ""
    ensures r.status == NotFound <==>
      mobile != "" && (!HasUser(s.users, mobile, Unscoped) || FindFav(s.following, LookupUser(s.users, mobile, Unscoped).value.id).None?)
    ensures r.status == InternalServerError <==>
      mobile != "" && HasUser(s.users, mobile, Unscoped)
      && FindFav(s.following, LookupUser(s.users, mobile, Unscoped).value.id).Some?
      && Step.Commit in env.faults
    ensures r.status == OK ==>
      && r.payload.FavsBody?
      && r.payload.favs in s.following
      && r.payload.favs.userId == LookupUser(s.users, mobile, Unscoped).value.id
      && r.payload.favs.list == ListOf(s.following, r.payload.favs.userId)
  {
    if mobile == "" then Response(BadRequest, Message)
    else match LookupUser(s.users, mobile, Unscoped)
      case None => Response(NotFound, Message)
      case Some(u) =>
        match FindFav(s.following, u.id)
        case None => Response(NotFound, Message)
        case Some(k) =>
          if Step.Commit in env.faults then Response(InternalServerError, Message)
          else Response(OK, FavsBody(s.following[k]))
  }

  /** The followers table plays no part in the answer. */
  lemma GetFavsIgnoresFollowers(s: Store, mobile: string, env: Env, followers: seq<FavRow>)
    ensures GetFavs(s.(followers := followers), mobile, env) == GetFavs(s, mobile, env)
  {
  }

  /** A soft-deleted account's follows remain readable. */
  lemma DeletedAccountFavsReadable(s: Store, i: nat, env: Env)
    requires UniqueMobiles(s.users)
    requires i < |s.users| && !s.users[i].Active() && s.users[i].mobile != ""
    requires FindFav(s.following, s.users[i].id).Some?
    requires Step.Commit !in env.faults
    ensures GetFavs(s, s.users[i].mobile, env).status == OK
  {
    FindUserUnique(s.users, s.users[i].mobile, Unscoped, i);
  }

  /** After a successful follow, the follower's favs answer lists the target. */
  lemma FollowShowsInFavs(s: Store, req: FavDeal.FavRequest, faults: set<Step>, env: Env)
    requires WellFormed(s)
    requires FavDeal.HandleFav(s, req, faults).resp.status == OK
    requires Step.Commit !in env.faults
    ensures var r := GetFavs(FavDeal.HandleFav(s, req, faults).store, req.currentMobile, env);
      r.status == OK && req.targetMobile in r.payload.favs.list
  {
    var s' := FavDeal.HandleFav(s, req, faults).store;
    var i := FindUser(s.users, req.currentMobile, Scoped).value;
    FindUserUnique(s.users, req.currentMobile, Unscoped, i);
    assert s'.users == s.users;
  }
}

=== FILE: auth_mobile.dfy ===
/** The registration flow of `handlers/auth_mobile.go`: `VerifyMobile` (does an
    active user own this mobile?), `RegisterBasicInfo` (create a buyer or seller)
    and `RegisterSellerDetails` (create the seller's shop). Each refreshes the
    user's cache entry on a best-effort basis and then asks the external token
    signer for a token; a signer failure answers 500 after the row was written. */
module AuthMobile {
  import opened Wrappers
  import opened Models
  import opened Db
  import opened Http
  import opened Cache

  /** `UserRegistrationRequest`: all fields required, role `oneof=buyer seller`. */
  datatype RegistrationRequest = RegistrationRequest(mobile: string, name: string, role: string)

  /** `SellerDetailsRequest`: all fields required. */
  datatype SellerDetailsRequest = SellerDetailsRequest(mobile: string, shopName: string, productType: string, shopUsername: string)

  /** A handler's answer, the store and the Redis contents it leaves behind. */
  datatype Outcome = Outcome(resp: Response, store: Store, redis: Redis)

  /** `CacheUser` whose error is only logged: when Redis is down nothing changes. */
  function CacheBestEffort(redis: Redis, cfg: Config, u: User, env: Env): (r: Redis)
    ensures env.cacheUp ==> Fetch(r, UserKey(cfg, u.id), env.now) == Some(u)
    ensures !env.cacheUp ==> r == redis
    ensures env.cacheUp ==> r.Keys == redis.Keys + {UserKey(cfg, u.id)}
    ensures env.cacheUp ==> forall k :: k in redis && k != UserKey(cfg, u.id) ==> r[k] == redis[k]
    ensures env.cacheUp ==> r[UserKey(cfg, u.id)].expiresAt == env.now + DefaultExpiration(cfg)
  {
    CacheUserExpiry(redis, cfg, u, env.now);
    match CacheUser(redis, cfg, Some(u), env.now, env.cacheUp)
    case Success(r) => r
    case Failure(_) => redis
  }

  /** `VerifyMobile`: reports whether an active user owns the mobile, and never writes the store. */
  function VerifyMobile(s: Store, redis: Redis, cfg: Config, mobile: string, env: Env): (o: Outcome)
    ensures o.store == s
    ensures o.resp.status in {OK, BadRequest, InternalServerError}
    ensures o.resp.status == BadRequest <==> mobile == ""
    ensures o.resp.status == OK ==> o.resp.payload.ExistsBody? && (o.resp.payload.present <==> HasUser(s.users, mobile, Scoped))
    ensures o.resp.status == OK ==> o.resp.payload.existing == LookupUser(s.users, mobile, Scoped)
    ensures o.resp.status == InternalServerError <==> mobile != "" && HasUser(s.users, mobile, Scoped) && !env.signerUp
    ensures mobile == "" || !HasUser(s.users, mobile, Scoped) ==> o.redis == redis
    ensures mobile != "" && HasUser(s.users, mobile, Scoped) ==>
      o.redis == CacheBestEffort(redis, cfg, LookupUser(s.users, mobile, Scoped).value, env)
  {
    if mobile == "" then Outcome(Response(BadRequest, Message), s, redis)
    else match LookupUser(s.users, mobile, Scoped)
      case None => Outcome(Response(OK, ExistsBody(false, None)), s, redis)
      case Some(u) =>
        var redis' := CacheBestEffort(redis, cfg, u, env);
        if !env.signerUp then Outcome(Response(InternalServerError, Message), s, redis')
        else Outcome(Response(OK, ExistsBody(true, Some(u))), s, redis')
  }

  predicate RegistrationBinds(req: RegistrationRequest) {
    req.mobile != "" && req.name != "" && (req.role == Buyer || req.role == Seller)
  }

  /** `RegisterBasicInfo`: 409 when an active user has the mobile; otherwise the
      insert, which the mobile index rejects (500) when a soft-deleted user has it. */
  function RegisterBasicInfo(s: Store, redis: Redis, cfg: Config, req: RegistrationRequest, env: Env): (o: Outcome)
    ensures o.resp.status in {Created, BadRequest, Conflict, InternalServerError}
    ensures o.resp.status == BadRequest <==> !RegistrationBinds(req)
    ensures o.resp.status == Conflict <==> RegistrationBinds(req) && HasUser(s.users, req.mobile, Scoped)
    ensures o.resp.status in {BadRequest, Conflict} ==> o.store == s && o.redis == redis
    ensures o.store != s ==>
      && RegistrationBinds(req)
      && o.store.users == s.users + [NewUser(s, req.mobile, req.name, req.role)]
      && o.store.shops == s.shops && o.store.following == s.following && o.store.followers == s.followers
    ensures o.resp.status == Created ==> o.store != s && o.resp.payload == UserBody(NewUser(s, req.mobile, req.name, req.role))
    ensures o.resp.status == InternalServerError && o.store != s ==> !env.signerUp
    ensures o.resp.status == InternalServerError <==>
      && RegistrationBinds(req) && !HasUser(s.users, req.mobile, Scoped)
      && (WriteUser in env.faults || HasUser(s.users, req.mobile, Unscoped) || !env.signerUp)
    ensures RegistrationBinds(req) && !HasUser(s.users, req.mobile, Unscoped) && WriteUser !in env.faults ==>
      o.store.users == s.users + [NewUser(s, req.mobile, req.name, req.role)]
    ensures WriteUser in env.faults || HasUser(s.users, req.mobile, Unscoped) ==> o.store == s && o.redis == redis
    ensures o.store != s ==> o.redis == CacheBestEffort(redis, cfg, NewUser(s, req.mobile, req.name, req.role), env)
    ensures o.store == s ==> o.redis == redis
    ensures WellFormed(s) ==> WellFormed(o.store)
  {
    if !RegistrationBinds(req) then Outcome(Response(BadRequest, Message), s, redis)
    else if FindUser(s.users, req.mobile, Scoped).Some? then Outcome(Response(Conflict, Message), s, redis)
    else match InsertUser(s, req.mobile, req.name, req.role, WriteUser in env.faults)
      case Failure(_) => Outcome(Response(InternalServerError, Message), s, redis)
      case Success(s') =>
        var u := NewUser(s, req.mobile, req.name, req.role);
        assert s'.users != s.users by { assert |s'.users| == |s.users| + 1; }
        var redis' := CacheBestEffort(redis, cfg, u, env);
        if !env.signerUp then Outcome(Response(InternalServerError, Message), s', redis')
        else Outcome(Response(Created, UserBody(u)), s', redis')
  }

  /** A mobile owned only by a soft-deleted user passes the 409 check, and the
      unique index then refuses the insert: 500 and no new row. */
  lemma DeletedMobileCannotRegister(s: Store, redis: Redis, cfg: Config, req: RegistrationRequest, env: Env)
    requires RegistrationBinds(req)
    requires HasUser(s.users, req.mobile, Unscoped) && !HasUser(s.users, req.mobile, Scoped)
    ensures var o := RegisterBasicInfo(s, redis, cfg, req, env);
      o.resp.status == InternalServerError && o.store == s
  {
  }

  predicate SellerDetailsBind(req: SellerDetailsRequest) {
    req.mobile != "" && req.shopName != "" && req.productType != "" && req.shopUsername != ""
  }

  /** The shop identifier: the four request fields concatenated, with no separator. */
  function ShopIdOf(req: SellerDetailsRequest): string {
    req.productType + req.mobile + req.shopUsername + req.shopName
  }

  /** The shop row `RegisterSellerDetails` inserts for the seller with ID `userId`. */
  function NewShop(req: SellerDetailsRequest, userId: nat): (shop: Shop)
    ensures shop.shopId == ShopIdOf(req) && shop.userId == userId && shop.Active()
    ensures shop.name == req.shopName && shop.username == req.shopUsername && shop.productType == req.productType
    ensures shop.bio.None? && shop.location.None? && shop.photo.None?
  {
    Shop(ShopIdOf(req), req.shopName, req.shopUsername, None, req.productType, None, None, userId, None)
  }

  /** The active user owning the mobile exists and is a seller. */
  predicate ActiveSeller(users: seq<User>, mobile: string) {
    LookupUser(users, mobile, Scoped).Some? && LookupUser(users, mobile, Scoped).value.role == Seller
  }

  /** Some shop row, deleted or not, already carries the identifier. */
  predicate ShopIdTaken(shops: seq<Shop>, shopId: string) {
    exists j :: 0 <= j < |shops| && shops[j].shopId == shopId
  }

  /** `RegisterSellerDetails`: 400 unless an active seller owns the mobile, 409 when
      that seller has an active shop, otherwise insert the shop in a transaction. */
  function RegisterSellerDetails(s: Store, redis: Redis, cfg: Config, req: SellerDetailsRequest, env: Env): (o: Outcome)
    ensures o.resp.status in {Created, BadRequest, Conflict, InternalServerError}
    ensures o.store.users == s.users && o.store.following == s.following && o.store.followers == s.followers
    ensures !SellerDetailsBind(req) || !HasUser(s.users, req.mobile, Scoped) ==> o.resp.status == BadRequest
    ensures o.resp.status == BadRequest ==> !SellerDetailsBind(req) || !HasUser(s.users, req.mobile, Scoped) || LookupUser(s.users, req.mobile, Scoped).value.role != Seller
    ensures o.resp.status == Conflict ==> HasShop(s.shops, LookupUser(s.users, req.mobile, Scoped).value.id, Scoped)
    ensures o.resp.status in {BadRequest, Conflict} ==> o.store == s && o.redis == redis
    ensures o.store != s ==>
      && LookupUser(s.users, req.mobile, Scoped).Some?
      && LookupUser(s.users, req.mobile, Scoped).value.role == Seller
      && o.store.shops == s.shops + [NewShop(req, LookupUser(s.users, req.mobile, Scoped).value.id)]
    ensures o.resp.status == Created ==> o.store != s && o.resp.payload == ShopBody(NewShop(req, LookupUser(s.users, req.mobile, Scoped).value.id))
    ensures o.resp.status == InternalServerError && o.store != s ==> !env.signerUp
    ensures SellerDetailsBind(req) && LookupUser(s.users, req.mobile, Scoped).Some? && !ActiveSeller(s.users, req.mobile) ==>
      o.resp.status == BadRequest
    ensures o.resp.status == BadRequest <==> !SellerDetailsBind(req) || !ActiveSeller(s.users, req.mobile)
    ensures o.resp.status == Conflict <==>
      SellerDetailsBind(req) && ActiveSeller(s.users, req.mobile) && HasShop(s.shops, LookupUser(s.users, req.mobile, Scoped).value.id, Scoped)
    ensures o.resp.status == InternalServerError <==>
      && SellerDetailsBind(req) && ActiveSeller(s.users, req.mobile)
      && !HasShop(s.shops, LookupUser(s.users, req.mobile, Scoped).value.id, Scoped)
      && (|| WriteShop in env.faults
          || ShopIdTaken(s.shops, ShopIdOf(req))
          || HasShop(s.shops, LookupUser(s.users, req.mobile, Scoped).value.id, Unscoped)
          || Step.Commit in env.faults
          || !env.signerUp)
    ensures
      && SellerDetailsBind(req) && ActiveSeller(s.users, req.mobile)
      && !HasShop(s.shops, LookupUser(s.users, req.mobile, Scoped).value.id, Unscoped)
      && !ShopIdTaken(s.shops, ShopIdOf(req))
      && WriteShop !in env.faults && Step.Commit !in env.faults
      ==> o.store.shops == s.shops + [NewShop(req, LookupUser(s.users, req.mobile, Scoped).value.id)]
    ensures
      || WriteShop in env.faults || Step.Commit in env.faults || ShopIdTaken(s.shops, ShopIdOf(req))
      || (ActiveSeller(s.users, req.mobile) && HasShop(s.shops, LookupUser(s.users, req.mobile, Scoped).value.id, Unscoped))
      ==> o.store == s && o.redis == redis
    ensures o.store != s ==> o.redis == CacheBestEffort(redis, cfg, LookupUser(s.users, req.mobile, Scoped).value, env)
    ensures o.store == s ==> o.redis == redis
    ensures WellFormed(s) ==> WellFormed(o.store)
  {
    if !SellerDetailsBind(req) then Outcome(Response(BadRequest, Message), s, redis)
    else match LookupUser(s.users, req.mobile, Scoped)
      case None => Outcome(Response(BadRequest, Message), s, redis)
      case Some(u) =>
        if u.role != Seller then Outcome(Response(BadRequest, Message), s, redis)
        else if FindShop(s.shops, u.id, Scoped).Some? then Outcome(Response(Conflict, Message), s, redis)
        else
          var shop := NewShop(req, u.id);
          match InsertShop(s, shop, WriteShop in env.faults)
          case Failure(_) => Outcome(Response(InternalServerError, Message), s, redis)
          case Success(s') =>
            assert s'.shops != s.shops by { assert |s'.shops| == |s.shops| + 1; }
            if Step.Commit in env.faults then Outcome(Response(InternalServerError, Message), s, redis)
            else
              var redis' := CacheBestEffort(redis, cfg, u, env);
              if !env.signerUp then Outcome(Response(InternalServerError, Message), s', redis')
              else Outcome(Response(Created, ShopBody(shop)), s', redis')
  }

  /** A seller whose only shop is soft-deleted passes the 409 check, and the
      one-shop-per-user index then refuses the insert: 500 and no new shop. */
  lemma DeletedShopBlocksNewShop(s: Store, redis: Redis, cfg: Config, req: SellerDetailsRequest, env: Env)
    requires SellerDetailsBind(req)
    requires LookupUser(s.users, req.mobile, Scoped).Some?
    requires LookupUser(s.users, req.mobile, Scoped).value.role == Seller
    requires HasShop(s.shops, LookupUser(s.users, req.mobile, Scoped).value.id, Unscoped)
    requires !HasShop(s.shops, LookupUser(s.users, req.mobile, Scoped).value.id, Scoped)
    ensures var o := RegisterSellerDetails(s, redis, cfg, req, env);
      o.resp.status == InternalServerError && o.store == s
  {
  }

  /** A shop is created only under a fresh identifier: when any shop already has
      the concatenated ID, the store keeps its shops. */
  lemma TakenShopIdCreatesNothing(s: Store, redis: Redis, cfg: Config, req: SellerDetailsRequest, env: Env, k: nat)
    requires k < |s.shops| && s.shops[k].shopId == ShopIdOf(req)
    ensures RegisterSellerDetails(s, redis, cfg, req, env).store == s
    ensures RegisterSellerDetails(s, redis, cfg, req, env).resp.status != Created
  {
  }

  /** Different field splits can concatenate to one identifier: product "a" with
      mobile "12" and product "a1" with mobile "2" both give "a12" + the rest. */
  lemma ShopIdAmbiguous(shopName: string, shopUsername: string)
    ensures var r1 := SellerDetailsRequest("12", shopName, "a", shopUsername);
      var r2 := SellerDetailsRequest("2", shopName, "a1", shopUsername);
      r1 != r2 && ShopIdOf(r1) == ShopIdOf(r2)
  {
    assert "a" + "12" == "a1" + "2";
  }

  /** A Redis outage changes neither the answer nor the store of `VerifyMobile`. */
  lemma VerifyMobileCacheHarmless(s: Store, redis: Redis, cfg: Config, mobile: string, env: Env)
    ensures VerifyMobile(s, redis, cfg, mobile, env.(cacheUp := false)).resp == VerifyMobile(s, redis, cfg, mobile, env.(cacheUp := true)).resp
  {
  }

  /** A Redis outage changes neither the answer nor the store of `RegisterBasicInfo`. */
  lemma RegisterBasicCacheHarmless(s: Store, redis: Redis, cfg: Config, req: RegistrationRequest, env: Env)
    ensures var down := RegisterBasicInfo(s, redis, cfg, req, env.(cacheUp := false));
      var up := RegisterBasicInfo(s, redis, cfg, req, env.(cacheUp := true));
      down.resp == up.resp && down.store == up.store
  {
  }

  /** A Redis outage changes neither the answer nor the store of `RegisterSellerDetails`. */
  lemma RegisterSellerCacheHarmless(s: Store, redis: Redis, cfg: Config, req: SellerDetailsRequest, env: Env)
    ensures var down := RegisterSellerDetails(s, redis, cfg, req, env.(cacheUp := false));
      var up := RegisterSellerDetails(s, redis, cfg, req, env.(cacheUp := true));
      down.resp == up.resp && down.store == up.store
  {
  }
}

=== FILE: auth_reactivate.dfy ===
/** The reactivation handlers of `handlers/auth_reactivate.go`. Neither reads
    `user_id`: any caller who knows a mobile may reactivate it. Reactivating a
    seller cascades to the seller's shop, whatever its state. */
module AuthReactivate {
  import opened Wrappers
  import opened Models
  import opened Db
  import opened Http
  import AuthDelete
  import AuthMobile

  /** `ReactivateUser`: empty mobile 400, no row with that mobile (deleted or
      not) 404, an active account 400; then the mark is cleared, and for a
      seller the first shop row the seller owns is cleared too. */
  function ReactivateUser(s: Store, mobile: string, env: Env): (r: Reply)
    ensures r.resp.status in {OK, BadRequest, NotFound, InternalServerError}
    ensures r.resp.status != OK ==> r.store == s
    ensures r.resp.status == NotFound <==> mobile != "" && !HasUser(s.users, mobile, Unscoped)
    ensures r.resp.status == BadRequest <==>
      mobile == "" || (LookupUser(s.users, mobile, Unscoped).Some? && LookupUser(s.users, mobile, Unscoped).value.Active())
    ensures r.resp.status == InternalServerError ==> env.faults != {}
    ensures r.resp.status == InternalServerError <==>
      && mobile != "" && LookupUser(s.users, mobile, Unscoped).Some?
      && var u := LookupUser(s.users, mobile, Unscoped).value;
      && !u.Active()
      && (|| WriteUser in env.faults
          || (u.role == Seller && HasShop(s.shops, u.id, Unscoped) && WriteShop in env.faults)
          || Step.Commit in env.faults)
    ensures r.resp.status == OK ==>
      && LookupUser(s.users, mobile, Unscoped).Some?
      && var u := LookupUser(s.users, mobile, Unscoped).value;
      && !u.Active()
      && UsersRemarked(s.users, r.store.users, u.id, None)
      && ShopsRemarked(s.shops, r.store.shops, u.id, None)
      && (u.role != Seller ==> r.store.shops == s.shops)
      && r.store.following == s.following && r.store.followers == s.followers
      && r.store.nextUserId == s.nextUserId
      && HasUser(r.store.users, mobile, Scoped)
      && (u.role == Seller && HasShop(s.shops, u.id, Unscoped) ==> HasShop(r.store.shops, u.id, Scoped))
    ensures WellFormed(s) ==> WellFormed(r.store)
  {
    if mobile == "" then Abort(s, BadRequest)
    else match FindUser(s.users, mobile, Unscoped)
      case None => Abort(s, NotFound)
      case Some(i) =>
        var u := s.users[i];
        if u.Active() then Abort(s, BadRequest)
        else match MarkUser(s, i, None, WriteUser in env.faults)
          case Failure(_) => Abort(s, InternalServerError)
          case Success(s1) =>
            assert UsersRemarked(s.users, s1.users, u.id, None);
            assert UserMatches(s1.users[i], mobile, Scoped);
            if u.role != Seller then CommitReply(s, s1, env, OK, Message)
            else match FindShop(s1.shops, u.id, Unscoped)
              case None => CommitReply(s, s1, env, OK, Message)
              case Some(j) =>
                match MarkShop(s1, j, None, WriteShop in env.faults)
                case Failure(_) => Abort(s, InternalServerError)
                case Success(s2) =>
                  assert ShopsRemarked(s.shops, s2.shops, u.id, None);
                  assert ShopMatches(s2.shops[j], u.id, Scoped);
                  CommitReply(s, s2, env, OK, Message)
  }

  /** With no fault injected, every soft-deleted account can be reactivated. */
  lemma ReactivateUserSucceeds(s: Store, mobile: string, env: Env)
    requires mobile != "" && LookupUser(s.users, mobile, Unscoped).Some?
    requires !LookupUser(s.users, mobile, Unscoped).value.Active()
    requires env.faults == {}
    ensures ReactivateUser(s, mobile, env).resp.status == OK
  {
  }

  /** `ReactivateUser` never depends on who is calling. */
  lemma ReactivateUserIgnoresCaller(s: Store, mobile: string, env: Env, caller: Option<nat>)
    ensures ReactivateUser(s, mobile, env.(auth := caller)) == ReactivateUser(s, mobile, env)
  {
    var e := env.(auth := caller);
    assert e.faults == env.faults;
    if mobile != "" && FindUser(s.users, mobile, Unscoped).Some? {
      var i := FindUser(s.users, mobile, Unscoped).value;
      forall s1: Store, s': Store, st: Status, body: Payload
        ensures CommitReply(s1, s', e, st, body) == CommitReply(s1, s', env, st, body)
      {
      }
    }
  }

  /** `ReactivateShop` never depends on who is calling. */
  lemma ReactivateShopIgnoresCaller(s: Store, mobile: string, env: Env, caller: Option<nat>)
    ensures ReactivateShop(s, mobile, env.(auth := caller)) == ReactivateShop(s, mobile, env)
  {
    var e := env.(auth := caller);
    assert e.faults == env.faults;
    forall s1: Store, s': Store, st: Status, body: Payload
      ensures CommitReply(s1, s', e, st, body) == CommitReply(s1, s', env, st, body)
    {
    }
  }

  /** `ReactivateShop`: empty mobile 400, no active user 404 (a deleted owner
      counts as missing), not a seller 400, no shop row 404, an active shop 400;
      then the shop's mark is cleared. */
  function ReactivateShop(s: Store, mobile: string, env: Env): (r: Reply)
    ensures r.resp.status in {OK, BadRequest, NotFound, InternalServerError}
    ensures r.resp.status != OK ==> r.store == s
    ensures mobile != "" && !HasUser(s.users, mobile, Scoped) ==> r.resp.status == NotFound
    ensures mobile != "" && LookupUser(s.users, mobile, Scoped).Some? && LookupUser(s.users, mobile, Scoped).value.role != Seller
      ==> r.resp.status == BadRequest
    ensures r.resp.status == BadRequest <==>
      || mobile == ""
      || (&& LookupUser(s.users, mobile, Scoped).Some?
          && var u := LookupUser(s.users, mobile, Scoped).value;
          || u.role != Seller
          || (HasShop(s.shops, u.id, Unscoped) && s.shops[FindShop(s.shops, u.id, Unscoped).value].Active()))
    ensures r.resp.status == NotFound <==>
      && mobile != ""
      && (|| !HasUser(s.users, mobile, Scoped)
          || (AuthMobile.ActiveSeller(s.users, mobile) && !HasShop(s.shops, LookupUser(s.users, mobile, Scoped).value.id, Unscoped)))
    ensures r.resp.status == InternalServerError ==> env.faults != {}
    ensures r.resp.status == InternalServerError <==>
      && mobile != "" && AuthMobile.ActiveSeller(s.users, mobile)
      && var u := LookupUser(s.users, mobile, Scoped).value;
      && HasShop(s.shops, u.id, Unscoped)
      && !s.shops[FindShop(s.shops, u.id, Unscoped).value].Active()
      && (WriteShop in env.faults || Step.Commit in env.faults)
    ensures r.resp.status == OK ==>
      && mobile != ""
      && LookupUser(s.users, mobile, Scoped).Some?
      && var u := LookupUser(s.users, mobile, Scoped).value;
      && u.role == Seller
      && FindShop(s.shops, u.id, Unscoped).Some?
      && !s.shops[FindShop(s.shops, u.id, Unscoped).value].Active()
      && r.store.users == s.users
      && ShopsRemarked(s.shops, r.store.shops, u.id, None)
      && r.store.following == s.following && r.store.followers == s.followers
      && HasShop(r.store.shops, u.id, Scoped)
    ensures WellFormed(s) ==> WellFormed(r.store)
  {
    if mobile == "" then Abort(s, BadRequest)
    else match FindUser(s.users, mobile, Scoped)
      case None => Abort(s, NotFound)
      case Some(i) =>
        var u := s.users[i];
        if u.role != Seller then Abort(s, BadRequest)
        else match FindShop(s.shops, u.id, Unscoped)
          case None => Abort(s, NotFound)
          case Some(j) =>
            if s.shops[j].Active() then Abort(s, BadRequest)
            else match MarkShop(s, j, None, WriteShop in env.faults)
              case Failure(_) => Abort(s, InternalServerError)
              case Success(s1) =>
                assert ShopsRemarked(s.shops, s1.shops, u.id, None);
                assert ShopMatches(s1.shops[j], u.id, Scoped);
                CommitReply(s, s1, env, OK, Message)
  }

  /** The store `DeleteUser` leaves behind for the owner of row i: the account
      marked, and for a seller the active shop at index j, if any, marked too. */
  function Deactivated(s: Store, i: nat, t: Stamp): (r: Store)
    requires i < |s.users|
    ensures r.following == s.following && r.followers == s.followers && |r.shops| == |s.shops|
  {
    var u := s.users[i];
    var s1 := s.(users := s.users[i := u.(deletedAt := Some(t))]);
    if u.role == Seller && FindShop(s.shops, u.id, Scoped).Some? then
      var j := FindShop(s.shops, u.id, Scoped).value;
      s1.(shops := s.shops[j := s.shops[j].(deletedAt := Some(t))])
    else s1
  }

  /** The owner's successful delete leaves exactly `Deactivated`. */
  lemma DeleteUserStore(s: Store, mobile: string, env: Env)
    requires mobile != "" && FindUser(s.users, mobile, Scoped).Some?
    requires env.auth == Some(s.users[FindUser(s.users, mobile, Scoped).value].id)
    requires env.faults == {}
    ensures AuthDelete.DeleteUser(s, mobile, env) == Reply(Response(OK, Message), Deactivated(s, FindUser(s.users, mobile, Scoped).value, env.now))
  {
  }

  /** Reactivating a `Deactivated` account restores the store, provided a seller's
      shop, if any, was active. */
  lemma ReactivateDeactivated(s: Store, i: nat, t: Stamp, env': Env)
    requires WellFormed(s) && i < |s.users| && s.users[i].Active() && s.users[i].mobile != ""
    requires env'.faults == {}
    requires s.users[i].role == Seller ==>
      forall k :: 0 <= k < |s.shops| && s.shops[k].userId == s.users[i].id ==> s.shops[k].Active()
    ensures ReactivateUser(Deactivated(s, i, t), s.users[i].mobile, env') == Reply(Response(OK, Message), s)
  {
    var u := s.users[i];
    var d := Deactivated(s, i, t);
    assert d.users == s.users[i := u.(deletedAt := Some(t))];
    assert UniqueMobiles(d.users) by {
      forall a, b | 0 <= a < |d.users| && 0 <= b < |d.users| && a != b ensures d.users[a].mobile != d.users[b].mobile {
        assert d.users[a].mobile == s.users[a].mobile && d.users[b].mobile == s.users[b].mobile;
      }
    }
    FindUserUnique(d.users, u.mobile, Unscoped, i);
    assert d.users[i := u] == s.users;
    if u.role == Seller && FindShop(s.shops, u.id, Scoped).Some? {
      var j := FindShop(s.shops, u.id, Scoped).value;
      assert d.shops == s.shops[j := s.shops[j].(deletedAt := Some(t))];
      assert UniqueShopOwners(d.shops) by {
        forall a, b | 0 <= a < |d.shops| && 0 <= b < |d.shops| && a != b ensures d.shops[a].userId != d.shops[b].userId {
          assert d.shops[a].userId == s.shops[a].userId && d.shops[b].userId == s.shops[b].userId;
        }
      }
      FindShopUnique(d.shops, u.id, Unscoped, j);
      assert d.shops[j := s.shops[j]] == s.shops;
    } else if u.role == Seller {
      assert d.shops == s.shops;
      forall k | 0 <= k < |s.shops| ensures !ShopMatches(s.shops[k], u.id, Unscoped) {
        assert !ShopMatches(s.shops[k], u.id, Scoped);
      }
    }
  }

  /** Deleting an account and reactivating it restores the store exactly: always
      for a buyer, and for a seller whose shop, if any, was active beforehand. */
  lemma DeleteThenReactivateUser(s: Store, mobile: string, env: Env, env': Env)
    requires WellFormed(s)
    requires mobile != "" && LookupUser(s.users, mobile, Scoped).Some?
    requires env.auth == Some(LookupUser(s.users, mobile, Scoped).value.id)
    requires env.faults == {} && env'.faults == {}
    requires LookupUser(s.users, mobile, Scoped).value.role == Seller ==>
      forall k :: 0 <= k < |s.shops| && s.shops[k].userId == env.auth.value ==> s.shops[k].Active()
    ensures AuthDelete.DeleteUser(s, mobile, env).resp.status == OK
    ensures ReactivateUser(AuthDelete.DeleteUser(s, mobile, env).store, mobile, env') == Reply(Response(OK, Message), s)
  {
    var i := FindUser(s.users, mobile, Scoped).value;
    DeleteUserStore(s, mobile, env);
    ReactivateDeactivated(s, i, env.now, env');
  }

  /** The other half of the round trip: a seller whose shop was already deleted
      gets it back active from the reactivation, so the store is not restored. */
  lemma DeleteThenReactivateRevivesShop(s: Store, mobile: string, env: Env, env': Env)
    requires WellFormed(s)
    requires mobile != "" && LookupUser(s.users, mobile, Scoped).Some?
    requires LookupUser(s.users, mobile, Scoped).value.role == Seller
    requires env.auth == Some(LookupUser(s.users, mobile, Scoped).value.id)
    requires env.faults == {} && env'.faults == {}
    requires HasShop(s.shops, env.auth.value, Unscoped) && !HasShop(s.shops, env.auth.value, Scoped)
    ensures AuthDelete.DeleteUser(s, mobile, env).resp.status == OK
    ensures var r := ReactivateUser(AuthDelete.DeleteUser(s, mobile, env).store, mobile, env');
      && r.resp.status == OK
      && HasShop(r.store.shops, env.auth.value, Scoped)
      && r.store != s
  {
    var i := FindUser(s.users, mobile, Scoped).value;
    var u := s.users[i];
    DeleteUserStore(s, mobile, env);
    var d := Deactivated(s, i, env.now);
    assert d.users == s.users[i := u.(deletedAt := Some(env.now))] && d.shops == s.shops;
    assert UniqueMobiles(d.users) by {
      forall a, b | 0 <= a < |d.users| && 0 <= b < |d.users| && a != b ensures d.users[a].mobile != d.users[b].mobile {
        assert d.users[a].mobile == s.users[a].mobile && d.users[b].mobile == s.users[b].mobile;
      }
    }
    FindUserUnique(d.users, mobile, Unscoped, i);
    ReactivateUserSucceeds(d, mobile, env');
  }

  /** Deleting a seller's shop and reactivating it restores the store exactly. */
  lemma DeleteThenReactivateShop(s: Store, mobile: string, env: Env, env': Env)
    requires WellFormed(s)
    requires mobile != "" && LookupUser(s.users, mobile, Scoped).Some?
    requires LookupUser(s.users, mobile, Scoped).value.role == Seller
    requires env.auth == Some(LookupUser(s.users, mobile, Scoped).value.id)
    requires HasShop(s.shops, env.auth.value, Scoped)
    requires env.faults == {} && env'.faults == {}
    ensures AuthDelete.DeleteShop(s, mobile, env).resp.status == OK
    ensures ReactivateShop(AuthDelete.DeleteShop(s, mobile, env).store, mobile, env') == Reply(Response(OK, Message), s)
  {
    var u := LookupUser(s.users, mobile, Scoped).value;
    var j := FindShop(s.shops, u.id, Scoped).value;
    var d := AuthDelete.DeleteShop(s, mobile, env);
    assert d.store.shops == s.shops[j := s.shops[j].(deletedAt := Some(env.now))];
    FindShopUnique(d.store.shops, u.id, Unscoped, j);
    assert d.store.shops[j := s.shops[j]] == s.shops;
  }

  /** A shop deleted together with its owner cannot come back on its own:
      `ReactivateShop` looks the owner up with the default scope and answers 404. */
  lemma DeletedOwnerBlocksShopReactivation(s: Store, mobile: string, env: Env, env': Env)
    requires WellFormed(s)
    requires AuthDelete.DeleteUser(s, mobile, env).resp.status == OK
    ensures ReactivateShop(AuthDelete.DeleteUser(s, mobile, env).store, mobile, env').resp.status == NotFound
  {
  }
}

=== FILE: auth_user.dfy ===
/** The profile handlers of `handlers/auth_user.go`: owner-only reads of a user
    and of a user's shop, owner-only partial updates ("an empty string or an
    nil optional field keeps the stored value"), and the legacy `Register`. */
module AuthUser {
  import opened Wrappers
  import opened Models
  import opened Db
  import opened Http

  /** `UpdateUserRequest`: no field is required. */
  datatype UpdateUserRequest = UpdateUserRequest(
    name: string, email: Option<string>, photo: Option<string>, mobile: string, role: string)

  /** `UpdateShopRequest`: no field is required. */
  datatype UpdateShopRequest = UpdateShopRequest(
    bio: Option<string>, location: Option<string>, photo: Option<string>,
    username: string, name: string, productType: string)

  /** A request string field replaces the stored value only when non-empty. */
  function PickString(given: string, stored: string): string {
    if given != "" then given else stored
  }

  /** An optional (nil-able) request field replaces the stored value only when non-nil. */
  function PickOption(given: Option<string>, stored: Option<string>): Option<string> {
    if given.Some? then given else stored
  }

  /** The merge of `UpdateUser`: name, email, photo, mobile and role may change;
      the ID and the soft-delete mark never do. */
  function MergeUser(u: User, q: UpdateUserRequest): (r: User)
    ensures r.id == u.id && r.deletedAt == u.deletedAt
  {
    u.(name := PickString(q.name, u.name),
       email := PickOption(q.email, u.email),
       photo := PickOption(q.photo, u.photo),
       mobile := PickString(q.mobile, u.mobile),
       role := PickString(q.role, u.role))
  }

  /** The merge of `UpdateShop`: the shop ID, the owner and the soft-delete mark never change. */
  function MergeShop(shop: Shop, q: UpdateShopRequest): (r: Shop)
    ensures r.shopId == shop.shopId && r.userId == shop.userId && r.deletedAt == shop.deletedAt
  {
    shop.(bio := PickOption(q.bio, shop.bio),
          location := PickOption(q.location, shop.location),
          photo := PickOption(q.photo, shop.photo),
          username := PickString(q.username, shop.username),
          name := PickString(q.name, shop.name),
          productType := PickString(q.productType, shop.productType))
  }

  /** Every field the request carries wins; every field it leaves empty or nil keeps the stored value. */
  lemma MergeUserFields(u: User, q: UpdateUserRequest)
    ensures var r := MergeUser(u, q);
      && (q.name != "" ==> r.name == q.name) && (q.name == "" ==> r.name == u.name)
      && (q.email.Some? ==> r.email == q.email) && (q.email.None? ==> r.email == u.email)
      && (q.photo.Some? ==> r.photo == q.photo) && (q.photo.None? ==> r.photo == u.photo)
      && (q.mobile != "" ==> r.mobile == q.mobile) && (q.mobile == "" ==> r.mobile == u.mobile)
      && (q.role != "" ==> r.role == q.role) && (q.role == "" ==> r.role == u.role)
  {
  }

  /** An all-empty request leaves the user exactly as stored. */
  lemma MergeUserEmptyKeeps(u: User)
    ensures MergeUser(u, UpdateUserRequest("", None, None, "", "")) == u
  {
  }

  /** The merge is monotone: a set email or photo can be changed but never cleared. */
  lemma MergeUserNeverClears(u: User, q: UpdateUserRequest)
    ensures u.email.Some? ==> MergeUser(u, q).email.Some?
    ensures u.photo.Some? ==> MergeUser(u, q).photo.Some?
  {
  }

  /** Applying the same request twice is the same as applying it once. */
  lemma MergeUserIdempotent(u: User, q: UpdateUserRequest)
    ensures MergeUser(MergeUser(u, q), q) == MergeUser(u, q)
  {
  }

  /** Every field the shop request carries wins; the others keep the stored value. */
  lemma MergeShopFields(shop: Shop, q: UpdateShopRequest)
    ensures var r := MergeShop(shop, q);
      && (q.bio.Some? ==> r.bio == q.bio) && (q.bio.None? ==> r.bio == shop.bio)
      && (q.location.Some? ==> r.location == q.location) && (q.location.None? ==> r.location == shop.location)
      && (q.photo.Some? ==> r.photo == q.photo) && (q.photo.None? ==> r.photo == shop.photo)
      && (q.username != "" ==> r.username == q.username) && (q.username == "" ==> r.username == shop.username)
      && (q.name != "" ==> r.name == q.name) && (q.name == "" ==> r.name == shop.name)
      && (q.productType != "" ==> r.productType == q.productType) && (q.productType == "" ==> r.productType == shop.productType)
  {
  }

  /** An all-empty shop request leaves the shop exactly as stored. */
  lemma MergeShopEmptyKeeps(shop: Shop)
    ensures MergeShop(shop, UpdateShopRequest(None, None, None, "", "", "")) == shop
  {
  }

  /** `Register`, the legacy endpoint: a deprecation notice, and no store access. */
  function Register(s: Store): (r: Reply)
    ensures r.store == s && r.resp.status == OK
  {
    Reply(Response(OK, Message), s)
  }

  /** `GetUser`: empty mobile 400, no `user_id` 401, no active user 404, someone
      else's record 403, otherwise the record. Read-only. */
  function GetUser(s: Store, mobile: string, env: Env): (r: Response)
    ensures r.status in {OK, BadRequest, Unauthorized, NotFound, Forbidden}
    ensures r.status == BadRequest <==> mobile == ""
    ensures r.status == Unauthorized <==> mobile != "" && env.auth.None?
    ensures r.status == NotFound <==> mobile != "" && env.auth.Some? && !HasUser(s.users, mobile, Scoped)
    ensures r.status == Forbidden ==> env.auth.Some? && LookupUser(s.users, mobile, Scoped).Some? && LookupUser(s.users, mobile, Scoped).value.id != env.auth.value
    ensures r.status == OK ==> r.payload.UserBody? && r.payload.user in s.users && UserMatches(r.payload.user, mobile, Scoped) && env.auth == Some(r.payload.user.id)
  {
    if mobile == "" then Response(BadRequest, Message)
    else if env.auth.None? then Response(Unauthorized, Message)
    else match LookupUser(s.users, mobile, Scoped)
      case None => Response(NotFound, Message)
      case Some(u) => if u.id != env.auth.value then Response(Forbidden, Message) else Response(OK, UserBody(u))
  }

  /** Under the store's indexes, the record is returned exactly when the caller owns an active user with that mobile. */
  lemma GetUserOwnerOnly(s: Store, mobile: string, env: Env)
    requires WellFormed(s)
    ensures GetUser(s, mobile, env).status == OK <==>
      mobile != "" && exists i :: 0 <= i < |s.users| && UserMatches(s.users[i], mobile, Scoped) && env.auth == Some(s.users[i].id)
  {
    if exists i :: 0 <= i < |s.users| && UserMatches(s.users[i], mobile, Scoped) && env.auth == Some(s.users[i].id) {
      var i :| 0 <= i < |s.users| && UserMatches(s.users[i], mobile, Scoped) && env.auth == Some(s.users[i].id);
      FindUserUnique(s.users, mobile, Scoped, i);
    }
  }

  /** `GetShopByUserMobile`: the guards of `GetUser`, then 404 when the owner has no active shop. Read-only. */
  function GetShopByUserMobile(s: Store, mobile: string, env: Env): (r: Response)
    ensures r.status in {OK, BadRequest, Unauthorized, NotFound, Forbidden}
    ensures r.status == BadRequest <==> mobile == ""
    ensures r.status == Unauthorized <==> mobile != "" && env.auth.None?
    ensures mobile != "" && env.auth.Some? && !HasUser(s.users, mobile, Scoped) ==> r.status == NotFound
    ensures r.status == Forbidden ==> env.auth.Some? && LookupUser(s.users, mobile, Scoped).Some? && LookupUser(s.users, mobile, Scoped).value.id != env.auth.value
    ensures r.status != OK <==> GetUser(s, mobile, env).status != OK || !HasShop(s.shops, env.auth.value, Scoped)
    ensures r.status == Forbidden <==> GetUser(s, mobile, env).status == Forbidden
    ensures r.status == NotFound <==>
      GetUser(s, mobile, env).status == NotFound || (GetUser(s, mobile, env).status == OK && !HasShop(s.shops, env.auth.value, Scoped))
    ensures r.status == OK ==> r.payload.ShopBody? && r.payload.shop in s.shops && ShopMatches(r.payload.shop, env.auth.value, Scoped)
  {
    if mobile == "" then Response(BadRequest, Message)
    else if env.auth.None? then Response(Unauthorized, Message)
    else match LookupUser(s.users, mobile, Scoped)
      case None => Response(NotFound, Message)
      case Some(u) =>
        if u.id != env.auth.value then Response(Forbidden, Message)
        else match FindShop(s.shops, u.id, Scoped)
          case None => Response(NotFound, Message)
          case Some(j) => Response(OK, ShopBody(s.shops[j]))
  }

  /** Another row than i already holds the mobile (deleted rows included). */
  predicate MobileHeldElsewhere(users: seq<User>, i: nat, mobile: string) {
    exists j :: 0 <= j < |users| && j != i && users[j].mobile == mobile
  }

  /** Another shop row than i already holds the shop's identifier or owner. */
  predicate ShopKeysHeldElsewhere(shops: seq<Shop>, i: nat, shop: Shop) {
    exists j :: 0 <= j < |shops| && j != i && (shops[j].shopId == shop.shopId || shops[j].userId == shop.userId)
  }

  /** The caller owns the active user with this mobile. */
  predicate CallerOwns(s: Store, mobile: string, env: Env) {
    mobile != "" && LookupUser(s.users, mobile, Scoped).Some? && env.auth == Some(LookupUser(s.users, mobile, Scoped).value.id)
  }

  /** `UpdateUser`: the user is looked up (404) before authentication is checked
      (401); only the owner may update (403); the merged record is saved, and the
      mobile index refuses a mobile another row already has (500). */
  function UpdateUser(s: Store, mobile: string, q: UpdateUserRequest, env: Env): (r: Reply)
    ensures r.resp.status in {OK, BadRequest, Unauthorized, NotFound, Forbidden, InternalServerError}
    ensures r.resp.status != OK ==> r.store == s
    ensures r.resp.status == BadRequest <==> mobile == ""
    ensures r.resp.status == NotFound <==> mobile != "" && !HasUser(s.users, mobile, Scoped)
    ensures r.resp.status == Unauthorized <==> mobile != "" && HasUser(s.users, mobile, Scoped) && env.auth.None?
    ensures r.resp.status == Forbidden <==>
      mobile != "" && HasUser(s.users, mobile, Scoped) && env.auth.Some? && LookupUser(s.users, mobile, Scoped).value.id != env.auth.value
    ensures r.resp.status == InternalServerError <==>
      && CallerOwns(s, mobile, env)
      && (|| WriteUser in env.faults
          || MobileHeldElsewhere(s.users, FindUser(s.users, mobile, Scoped).value, MergeUser(LookupUser(s.users, mobile, Scoped).value, q).mobile))
    ensures r.resp.status == OK ==>
      var i := FindUser(s.users, mobile, Scoped).value;
      && env.auth == Some(s.users[i].id)
      && r.store == s.(users := s.users[i := MergeUser(s.users[i], q)])
      && r.resp.payload == UserBody(MergeUser(s.users[i], q))
    ensures WellFormed(s) ==> WellFormed(r.store)
  {
    if mobile == "" then Abort(s, BadRequest)
    else match FindUser(s.users, mobile, Scoped)
      case None => Abort(s, NotFound)
      case Some(i) =>
        if env.auth.None? then Abort(s, Unauthorized)
        else if s.users[i].id != env.auth.value then Abort(s, Forbidden)
        else
          var merged := MergeUser(s.users[i], q);
          match SaveUser(s, i, merged, WriteUser in env.faults)
          case Failure(_) => Abort(s, InternalServerError)
          case Success(s') => Reply(Response(OK, UserBody(merged)), s')
  }

  /** The two handlers check in opposite orders: without `user_id`, an unknown
      mobile reads as 401 but updates as 404. */
  lemma UnauthenticatedUnknownMobile(s: Store, mobile: string, q: UpdateUserRequest, env: Env)
    requires mobile != "" && env.auth.None? && !HasUser(s.users, mobile, Scoped)
    ensures GetUser(s, mobile, env).status == Unauthorized
    ensures UpdateUser(s, mobile, q, env).resp.status == NotFound
  {
  }

  /** The owner may not take a mobile another row holds, even a deleted one: the
      unique index refuses the save with 500 and nothing changes. */
  lemma UpdateToTakenMobileFails(s: Store, mobile: string, q: UpdateUserRequest, env: Env, k: nat)
    requires mobile != "" && FindUser(s.users, mobile, Scoped).Some?
    requires env.auth == Some(s.users[FindUser(s.users, mobile, Scoped).value].id)
    requires q.mobile != "" && k < |s.users| && k != FindUser(s.users, mobile, Scoped).value && s.users[k].mobile == q.mobile
    ensures UpdateUser(s, mobile, q, env) == Abort(s, InternalServerError)
  {
    var i := FindUser(s.users, mobile, Scoped).value;
    assert MergeUser(s.users[i], q).mobile == q.mobile;
  }

  /** An all-empty update by the owner saves the user unchanged. */
  lemma EmptyUpdateChangesNothing(s: Store, mobile: string, env: Env)
    requires WellFormed(s)
    ensures UpdateUser(s, mobile, UpdateUserRequest("", None, None, "", ""), env).store == s
  {
    var r := UpdateUser(s, mobile, UpdateUserRequest("", None, None, "", ""), env);
    if r.resp.status == OK {
      var i := FindUser(s.users, mobile, Scoped).value;
      MergeUserEmptyKeeps(s.users[i]);
      assert s.users[i := s.users[i]] == s.users;
    }
  }

  /** `UpdateShop`: the guards of `UpdateUser`, then 404 when the owner has no
      active shop; the merged shop keeps its ID and owner. */
  function UpdateShop(s: Store, mobile: string, q: UpdateShopRequest, env: Env): (r: Reply)
    ensures r.resp.status in {OK, BadRequest, Unauthorized, NotFound, Forbidden, InternalServerError}
    ensures r.resp.status != OK ==> r.store == s
    ensures r.resp.status == BadRequest <==> mobile == ""
    ensures mobile != "" && !HasUser(s.users, mobile, Scoped) ==> r.resp.status == NotFound
    ensures r.resp.status == NotFound <==>
      mobile != "" && (!HasUser(s.users, mobile, Scoped) || (CallerOwns(s, mobile, env) && !HasShop(s.shops, env.auth.value, Scoped)))
    ensures r.resp.status == Unauthorized <==> mobile != "" && HasUser(s.users, mobile, Scoped) && env.auth.None?
    ensures r.resp.status == Forbidden <==>
      mobile != "" && HasUser(s.users, mobile, Scoped) && env.auth.Some? && LookupUser(s.users, mobile, Scoped).value.id != env.auth.value
    ensures r.resp.status == InternalServerError <==>
      && CallerOwns(s, mobile, env) && HasShop(s.shops, env.auth.value, Scoped)
      && (|| WriteShop in env.faults
          || ShopKeysHeldElsewhere(s.shops, FindShop(s.shops, env.auth.value, Scoped).value,
                                   s.shops[FindShop(s.shops, env.auth.value, Scoped).value]))
    ensures r.resp.status == OK ==>
      && LookupUser(s.users, mobile, Scoped).Some?
      && Some(LookupUser(s.users, mobile, Scoped).value.id) == env.auth
      && FindShop(s.shops, env.auth.value, Scoped).Some?
      && var j := FindShop(s.shops, env.auth.value, Scoped).value;
      && r.store == s.(shops := s.shops[j := MergeShop(s.shops[j], q)])
      && r.resp.payload == ShopBody(MergeShop(s.shops[j], q))
    ensures r.store.users == s.users
    ensures WellFormed(s) ==> WellFormed(r.store)
  {
    if mobile == "" then Abort(s, BadRequest)
    else match LookupUser(s.users, mobile, Scoped)
      case None => Abort(s, NotFound)
      case Some(u) =>
        if env.auth.None? then Abort(s, Unauthorized)
        else if u.id != env.auth.value then Abort(s, Forbidden)
        else match FindShop(s.shops, u.id, Scoped)
          case None => Abort(s, NotFound)
          case Some(j) =>
            var merged := MergeShop(s.shops[j], q);
            match SaveShop(s, j, merged, WriteShop in env.faults)
            case Failure(_) => Abort(s, InternalServerError)
            case Success(s') => Reply(Response(OK, ShopBody(merged)), s')
  }

  /** Under the store's indexes the merged shop never clashes: the owner's update
      with an active shop fails only on a write fault. */
  lemma UpdateShopFailsOnlyOnFault(s: Store, mobile: string, q: UpdateShopRequest, env: Env)
    requires WellFormed(s)
    requires CallerOwns(s, mobile, env) && HasShop(s.shops, env.auth.value, Scoped)
    ensures UpdateShop(s, mobile, q, env).resp.status == InternalServerError <==> WriteShop in env.faults
    ensures WriteShop !in env.faults ==> UpdateShop(s, mobile, q, env).resp.status == OK
  {
    var j := FindShop(s.shops, env.auth.value, Scoped).value;
    assert !ShopKeysHeldElsewhere(s.shops, j, s.shops[j]);
  }

  /** An owner without an active shop gets 404 from `UpdateShop`, and nothing is saved. */
  lemma UpdateShopNeedsActiveShop(s: Store, mobile: string, q: UpdateShopRequest, env: Env)
    requires mobile != "" && LookupUser(s.users, mobile, Scoped).Some?
    requires env.auth == Some(LookupUser(s.users, mobile, Scoped).value.id)
    requires !HasShop(s.shops, env.auth.value, Scoped)
    ensures UpdateShop(s, mobile, q, env).resp.status == NotFound
    ensures UpdateShop(s, mobile, q, env).store == s
  {
  }
}

=== FILE: cache.dfy ===
/** The Redis-backed cache of `cache/cache.go`: user snapshots under
    `UserCachePrefix + decimal(ID)` with the configured default expiry, and
    registration drafts under `"temp:user:" + mobile` with a fixed 15-minute expiry.
    Redis is a map from key to entry with an absolute expiry on a nanosecond
    clock; JSON marshalling is the identity, so an entry holds the user itself. */
module Cache {
  import opened Wrappers
  import opened Digits
  import opened Models

  const NanosPerMinute: nat := 60_000_000_000
  /** Minutes used when `REDIS_CACHE_EXPIRATION` is unset, malformed or not positive. */
  const FallbackExpirationMinutes: nat := 30
  const TempUserInfoPrefix: string := "temp:user:"
  const TempDataExpiration: nat := 15 * NanosPerMinute

  /** The process environment the cache reads at start-up:
      `REDIS_USER_CACHE_PREFIX` and `REDIS_CACHE_EXPIRATION`. */
  datatype Config = Config(userPrefix: string, expirationEnv: string)

  /** A stored value and the first clock reading at which Redis no longer returns it. */
  datatype Entry = Entry(user: User, expiresAt: int)

  type Redis = map<string, Entry>

  /** `NilUser`: `CacheUser(nil)`; `Miss`: no live key (redis.Nil); `Unavailable`: Redis error. */
  datatype CacheError = NilUser | Miss | Unavailable

  predicate StartsWith(s: string, prefix: string) {
    |prefix| <= |s| && s[..|prefix|] == prefix
  }

  /** The expiry in minutes chosen from the environment value. */
  function ExpirationMinutes(env: string): (m: nat)
    ensures m > 0
    ensures m != FallbackExpirationMinutes ==> Atoi(env) == Some(m)
    ensures Atoi(env).Some? && Atoi(env).value > 0 ==> m == Atoi(env).value
  {
    match Atoi(env)
    case Some(n) => if n > 0 then n else FallbackExpirationMinutes
    case None => FallbackExpirationMinutes
  }

  /** A positive decimal setting is taken as is. */
  lemma ExpirationFromSetting(n: nat)
    requires 0 < n <= MaxInt64
    ensures ExpirationMinutes(Decimal(n)) == n
  {
    AtoiDecimal(n);
  }

  /** Unset, malformed, zero or negative settings fall back to 30 minutes. */
  lemma ExpirationFallback(env: string)
    requires Atoi(env).None? || Atoi(env).value <= 0
    ensures ExpirationMinutes(env) == FallbackExpirationMinutes
  {
  }

  /** The default expiry as an unbounded duration in nanoseconds: the configured minutes. */
  function DefaultExpiration(cfg: Config): (ttl: nat)
    ensures ttl > 0 && ttl % NanosPerMinute == 0
    ensures ttl / NanosPerMinute == ExpirationMinutes(cfg.expirationEnv)
  {
    ExpirationMinutes(cfg.expirationEnv) * NanosPerMinute
  }

  /** Two's-complement wrap-around of a Go `int64` result. */
  function WrapInt64(x: int): (r: int)
    ensures MinInt64 <= r <= MaxInt64
    ensures MinInt64 <= x <= MaxInt64 ==> r == x
  {
    (x - MinInt64) % 0x1_0000_0000_0000_0000 + MinInt64
  }

  /** `time.Duration(exp) * time.Minute` as written: an int64 product that wraps. */
  function DefaultExpirationAsWritten(cfg: Config): (d: int)
    ensures MinInt64 <= d <= MaxInt64
  {
    WrapInt64(ExpirationMinutes(cfg.expirationEnv) * NanosPerMinute)
  }

  /** Up to 153722867 minutes the int64 product is exact. */
  lemma AsWrittenAgreesBelowOverflow(cfg: Config)
    requires ExpirationMinutes(cfg.expirationEnv) <= 153722867
    ensures DefaultExpirationAsWritten(cfg) == DefaultExpiration(cfg)
  {
  }

  /** A setting of 153722868 minutes, the first one past the int64 range, wraps
      to a negative duration. */
  lemma AsWrittenOverflows(cfg: Config, n: nat)
    requires n == OverflowingMinutes && cfg.expirationEnv == Decimal(n)
    ensures DefaultExpirationAsWritten(cfg) == -9223371993709551616
  {
    ExpirationFromSetting(n);
    WrapOverflow(n * NanosPerMinute);
  }

  lemma WrapOverflow(x: int)
    requires x == OverflowingMinutes * NanosPerMinute
    ensures WrapInt64(x) == -9223371993709551616
  {
    assert x - MinInt64 == 0x1_0000_0000_0000_0000 + 43145224192;
  }

  const OverflowingMinutes: nat := 153722868

  /** The key of a user snapshot: `fmt.Sprintf("%s%d", UserCachePrefix, id)`. */
  function UserKey(cfg: Config, id: nat): (k: string)
    ensures StartsWith(k, cfg.userPrefix) && |k| > |cfg.userPrefix|
    ensures AllDigits(k[|cfg.userPrefix|..]) && Value(k[|cfg.userPrefix|..]) == id
  {
    ValueOfDecimal(id);
    cfg.userPrefix + Decimal(id)
  }

  /** The key of a registration draft: `fmt.Sprintf("%s%s", "temp:user:", mobile)`. */
  function TempKey(mobile: string): (k: string)
    ensures StartsWith(k, TempUserInfoPrefix) && k[|TempUserInfoPrefix|..] == mobile
    ensures |k| == |TempUserInfoPrefix| + |mobile|
  {
    TempUserInfoPrefix + mobile
  }

  /** Distinct user IDs give distinct keys. */
  lemma UserKeyInjective(cfg: Config, a: nat, b: nat)
    ensures UserKey(cfg, a) == UserKey(cfg, b) ==> a == b
  {
    if UserKey(cfg, a) == UserKey(cfg, b) {
      var p := |cfg.userPrefix|;
      assert Decimal(a) == UserKey(cfg, a)[p..];
      assert Decimal(b) == UserKey(cfg, b)[p..];
      DecimalInjective(a, b);
    }
  }

  /** User keys and draft keys never meet unless the configured prefix itself
      starts with "temp:user:": no character of "temp:user:" is a digit. */
  lemma KeysDisjoint(cfg: Config, id: nat, mobile: string)
    requires !StartsWith(cfg.userPrefix, TempUserInfoPrefix)
    ensures UserKey(cfg, id) != TempKey(mobile)
  {
    var p := cfg.userPrefix;
    var t := TempUserInfoPrefix;
    var k := UserKey(cfg, id);
    if |p| >= |t| {
      assert k[..|t|] == p[..|t|] != t;
      assert TempKey(mobile)[..|t|] == t;
    } else {
      assert IsDigit(k[|p|]) by { assert k[|p|] == Decimal(id)[0]; }
      assert !IsDigit(TempKey(mobile)[|p|]) by { assert TempKey(mobile)[|p|] == t[|p|]; }
    }
  }

  /** With such a prefix, every user key is also the draft key of some mobile. */
  lemma KeysCollide(cfg: Config, id: nat)
    requires StartsWith(cfg.userPrefix, TempUserInfoPrefix)
    ensures exists mobile :: UserKey(cfg, id) == TempKey(mobile)
  {
    var p := cfg.userPrefix;
    var mobile := p[|TempUserInfoPrefix|..] + Decimal(id);
    assert p == TempUserInfoPrefix + p[|TempUserInfoPrefix|..];
    assert UserKey(cfg, id) == TempKey(mobile);
  }

  /** Redis `SET key value EX ttl` at clock `now`. */
  function Put(redis: Redis, key: string, u: User, now: int, ttl: nat): (r: Redis)
    requires ttl > 0
    ensures r.Keys == redis.Keys + {key}
    ensures forall k :: k in redis && k != key ==> r[k] == redis[k]
    ensures r[key].user == u && r[key].expiresAt == now + ttl
  {
    redis[key := Entry(u, now + ttl)]
  }

  /** Redis `GET key` at clock `now`: only an unexpired entry is returned. */
  function Fetch(redis: Redis, key: string, now: int): (r: Option<User>)
    ensures r.Some? <==> key in redis && now < redis[key].expiresAt
    ensures r.Some? ==> r.value == redis[key].user
  {
    if key in redis && now < redis[key].expiresAt then Some(redis[key].user) else None
  }

  /** `CacheUser`: a nil user is refused before Redis is contacted. */
  function CacheUser(redis: Redis, cfg: Config, user: Option<User>, now: int, up: bool): (r: Result<Redis, CacheError>)
    ensures user.None? ==> r == Failure(NilUser)
    ensures r.Success? <==> user.Some? && up
    ensures r.Success? ==> r.value.Keys == redis.Keys + {UserKey(cfg, user.value.id)}
    ensures r.Success? ==> forall k :: k in redis && k != UserKey(cfg, user.value.id) ==> r.value[k] == redis[k]
  {
    match user
    case None => Failure(NilUser)
    case Some(u) => if up then Success(Put(redis, UserKey(cfg, u.id), u, now, DefaultExpiration(cfg))) else Failure(Unavailable)
  }

  /** The entry `CacheUser` writes expires after the intended TTL; for every
      setting up to 153722867 minutes that is exactly the duration the source
      hands to Redis. */
  lemma CacheUserExpiry(redis: Redis, cfg: Config, u: User, now: int)
    ensures var w := CacheUser(redis, cfg, Some(u), now, true);
      && w.Success?
      && w.value[UserKey(cfg, u.id)].expiresAt == now + DefaultExpiration(cfg)
      && (ExpirationMinutes(cfg.expirationEnv) <= OverflowingMinutes - 1 ==>
            w.value[UserKey(cfg, u.id)].expiresAt == now + DefaultExpirationAsWritten(cfg))
  {
    if ExpirationMinutes(cfg.expirationEnv) <= OverflowingMinutes - 1 {
      AsWrittenAgreesBelowOverflow(cfg);
    }
  }

  /** `GetCachedUser`: a live snapshot, or the Redis error (a miss is `Miss`). */
  function GetCachedUser(redis: Redis, cfg: Config, id: nat, now: int, up: bool): (r: Result<User, CacheError>)
    ensures r.Success? <==> up && Fetch(redis, UserKey(cfg, id), now).Some?
    ensures r.Success? ==> r.value == redis[UserKey(cfg, id)].user
  {
    if !up then Failure(Unavailable)
    else match Fetch(redis, UserKey(cfg, id), now)
      case None => Failure(Miss)
      case Some(u) => Success(u)
  }

  /** `InvalidateUserCache`: `DEL` of the user's key. */
  function InvalidateUserCache(redis: Redis, cfg: Config, id: nat, up: bool): (r: Result<Redis, CacheError>)
    ensures r.Success? <==> up
    ensures r.Success? ==> r.value.Keys == redis.Keys - {UserKey(cfg, id)}
    ensures r.Success? ==> forall k :: k in r.value ==> r.value[k] == redis[k]
  {
    if up then Success(redis - {UserKey(cfg, id)}) else Failure(Unavailable)
  }

  /** `CacheTempUserInfo`: the draft is stored for 15 minutes. */
  function CacheTempUserInfo(redis: Redis, mobile: string, u: User, now: int, up: bool): (r: Result<Redis, CacheError>)
    ensures r.Success? <==> up
    ensures r.Success? ==> r.value.Keys == redis.Keys + {TempKey(mobile)}
    ensures r.Success? ==> forall k :: k in redis && k != TempKey(mobile) ==> r.value[k] == redis[k]
  {
    if up then Success(Put(redis, TempKey(mobile), u, now, TempDataExpiration)) else Failure(Unavailable)
  }

  /** `GetTempUserInfo`. */
  function GetTempUserInfo(redis: Redis, mobile: string, now: int, up: bool): (r: Result<User, CacheError>)
    ensures r.Success? <==> up && Fetch(redis, TempKey(mobile), now).Some?
    ensures r.Success? ==> r.value == redis[TempKey(mobile)].user
  {
    if !up then Failure(Unavailable)
    else match Fetch(redis, TempKey(mobile), now)
      case None => Failure(Miss)
      case Some(u) => Success(u)
  }

  /** `RemoveTempUserInfo`: `DEL` of the draft's key. */
  function RemoveTempUserInfo(redis: Redis, mobile: string, up: bool): (r: Result<Redis, CacheError>)
    ensures r.Success? <==> up
    ensures r.Success? ==> r.value.Keys == redis.Keys - {TempKey(mobile)}
    ensures r.Success? ==> forall k :: k in r.value ==> r.value[k] == redis[k]
  {
    if up then Success(redis - {TempKey(mobile)}) else Failure(Unavailable)
  }

  /** A cached user reads back unchanged until its expiry, and misses from then on. */
  lemma CachedUserReadBack(redis: Redis, cfg: Config, u: User, t: int, t': int)
    requires t <= t'
    ensures var w := CacheUser(redis, cfg, Some(u), t, true);
      w.Success? &&
      GetCachedUser(w.value, cfg, u.id, t', true) ==
        if t' < t + DefaultExpiration(cfg) then Success(u) else Failure(Miss)
  {
  }

  /** After invalidation the user misses, whatever was cached before. */
  lemma InvalidatedUserMisses(redis: Redis, cfg: Config, id: nat, t: int)
    ensures var w := InvalidateUserCache(redis, cfg, id, true);
      w.Success? && GetCachedUser(w.value, cfg, id, t, true) == Failure(Miss)
  {
  }

  /** A draft reads back unchanged for 15 minutes, and misses from then on. */
  lemma TempUserReadBack(redis: Redis, mobile: string, u: User, t: int, t': int)
    requires t <= t'
    ensures var w := CacheTempUserInfo(redis, mobile, u, t, true);
      w.Success? &&
      GetTempUserInfo(w.value, mobile, t', true) ==
        if t' < t + TempDataExpiration then Success(u) else Failure(Miss)
  {
  }

  /** After removal the draft misses. */
  lemma RemovedTempUserMisses(redis: Redis, mobile: string, t: int)
    ensures var w := RemoveTempUserInfo(redis, mobile, true);
      w.Success? && GetTempUserInfo(w.value, mobile, t, true) == Failure(Miss)
  {
  }

  /** With a prefix outside "temp:user:", storing or removing a draft never changes
      what a user read returns, and caching or invalidating a user never changes
      what a draft read returns. */
  lemma NamespacesIsolated(redis: Redis, cfg: Config, id: nat, mobile: string, u: User, t: int, t': int, up: bool)
    requires !StartsWith(cfg.userPrefix, TempUserInfoPrefix)
    ensures var w := CacheTempUserInfo(redis, mobile, u, t, true);
      w.Success? && GetCachedUser(w.value, cfg, id, t', up) == GetCachedUser(redis, cfg, id, t', up)
    ensures var w := RemoveTempUserInfo(redis, mobile, true);
      w.Success? && GetCachedUser(w.value, cfg, id, t', up) == GetCachedUser(redis, cfg, id, t', up)
    ensures var w := CacheUser(redis, cfg, Some(u.(id := id)), t, true);
      w.Success? && GetTempUserInfo(w.value, mobile, t', up) == GetTempUserInfo(redis, mobile, t', up)
    ensures var w := InvalidateUserCache(redis, cfg, id, true);
      w.Success? && GetTempUserInfo(w.value, mobile, t', up) == GetTempUserInfo(redis, mobile, t', up)
  {
    KeysDisjoint(cfg, id, mobile);
  }

  /** A mobile spelled like a user ID: ID 9998887777 and mobile "9998887777" coexist. */
  lemma SameDigitsDoNotCollide(redis: Redis, cfg: Config, u: User, draft: User, t: int)
    requires !StartsWith(cfg.userPrefix, TempUserInfoPrefix)
    requires u.id == 9998887777
    ensures var w1 := CacheTempUserInfo(redis, "9998887777", draft, t, true);
      w1.Success? &&
      var w2 := CacheUser(w1.value, cfg, Some(u), t, true);
      w2.Success? &&
      GetTempUserInfo(w2.value, "9998887777", t, true) == Success(draft) &&
      GetCachedUser(w2.value, cfg, u.id, t, true) == Success(u)
  {
    KeysDisjoint(cfg, u.id, "9998887777");
  }
}

=== FILE: db.dfy ===
/** The store operations the handlers issue through gorm: first-match lookups
    under the default (soft-delete hiding) scope or `Unscoped()`, inserts and
    updates that the uniqueness indexes may reject, and injected write faults. */
module Db {
  import opened Wrappers
  import opened Models

  /** `Scoped` is gorm's default scope, which skips soft-deleted rows. */
  datatype Scope = Scoped | Unscoped

  predicate Visible(scope: Scope, deletedAt: Option<Stamp>) {
    scope == Unscoped || deletedAt.None?
  }

  /** A write the store refused: an index violation, or any other failure
      (lost connection, deadlock) that the caller injects. */
  datatype DbError = UniqueViolation | WriteFailed

  predicate UserMatches(u: User, mobile: string, scope: Scope) {
    u.mobile == mobile && Visible(scope, u.deletedAt)
  }

  predicate HasUser(users: seq<User>, mobile: string, scope: Scope) {
    exists i :: 0 <= i < |users| && UserMatches(users[i], mobile, scope)
  }

  /** `Where("mobile_number = ?", m).First(&user)`: the first row in key order. */
  function FindUser(users: seq<User>, mobile: string, scope: Scope): (r: Option<nat>)
    ensures r.Some? ==> r.value < |users| && UserMatches(users[r.value], mobile, scope)
    ensures r.Some? ==> forall j :: 0 <= j < r.value ==> !UserMatches(users[j], mobile, scope)
    ensures r.None? <==> !HasUser(users, mobile, scope)
  {
    if |users| == 0 then None
    else if UserMatches(users[0], mobile, scope) then Some(0)
    else match FindUser(users[1..], mobile, scope)
      case None => None
      case Some(i) => Some(i + 1)
  }

  /** The row the lookup finds, if any. */
  function LookupUser(users: seq<User>, mobile: string, scope: Scope): (r: Option<User>)
    ensures r.Some? ==> r.value in users && UserMatches(r.value, mobile, scope)
    ensures r.None? <==> !HasUser(users, mobile, scope)
  {
    match FindUser(users, mobile, scope)
    case None => None
    case Some(i) => Some(users[i])
  }

  predicate ShopMatches(shop: Shop, userId: nat, scope: Scope) {
    shop.userId == userId && Visible(scope, shop.deletedAt)
  }

  predicate HasShop(shops: seq<Shop>, userId: nat, scope: Scope) {
    exists i :: 0 <= i < |shops| && ShopMatches(shops[i], userId, scope)
  }

  /** `Where("user_id = ?", id).First(&shop)`. */
  function FindShop(shops: seq<Shop>, userId: nat, scope: Scope): (r: Option<nat>)
    ensures r.Some? ==> r.value < |shops| && ShopMatches(shops[r.value], userId, scope)
    ensures r.Some? ==> forall j :: 0 <= j < r.value ==> !ShopMatches(shops[j], userId, scope)
    ensures r.None? <==> !HasShop(shops, userId, scope)
  {
    if |shops| == 0 then None
    else if ShopMatches(shops[0], userId, scope) then Some(0)
    else match FindShop(shops[1..], userId, scope)
      case None => None
      case Some(i) => Some(i + 1)
  }

  /** `Where("user_id = ?", id).First(&fav)` on a follow table. */
  function FindFav(rows: seq<FavRow>, userId: nat): (r: Option<nat>)
    ensures r.Some? ==> r.value < |rows| && rows[r.value].userId == userId
    ensures r.Some? ==> forall j :: 0 <= j < r.value ==> rows[j].userId != userId
    ensures r.None? <==> forall j :: 0 <= j < |rows| ==> rows[j].userId != userId
  {
    if |rows| == 0 then None
    else if rows[0].userId == userId then Some(0)
    else match FindFav(rows[1..], userId)
      case None => None
      case Some(i) => Some(i + 1)
  }

  /** The list a user's row holds in a follow table; no row reads as empty. */
  function ListOf(rows: seq<FavRow>, userId: nat): (r: seq<string>)
    ensures (forall j :: 0 <= j < |rows| ==> rows[j].userId != userId) ==> r == []
    ensures UniqueFavOwners(rows) ==> forall k :: 0 <= k < |rows| && rows[k].userId == userId ==> r == rows[k].list
  {
    match FindFav(rows, userId)
    case None => []
    case Some(i) => rows[i].list
  }

  /** The count a user's row holds in a follow table; no row reads as zero. */
  function CountOf(rows: seq<FavRow>, userId: nat): (r: int)
    ensures (forall j :: 0 <= j < |rows| ==> rows[j].userId != userId) ==> r == 0
    ensures UniqueFavOwners(rows) ==> forall k :: 0 <= k < |rows| && rows[k].userId == userId ==> r == rows[k].count
  {
    match FindFav(rows, userId)
    case None => 0
    case Some(i) => rows[i].count
  }

  /** Under the unique mobile index, the lookup finds the one row with that mobile. */
  lemma FindUserUnique(users: seq<User>, mobile: string, scope: Scope, i: nat)
    requires UniqueMobiles(users)
    requires i < |users| && UserMatches(users[i], mobile, scope)
    ensures FindUser(users, mobile, scope) == Some(i)
  {
  }

  /** Under the one-shop-per-user index, the lookup finds the one shop of the user. */
  lemma FindShopUnique(shops: seq<Shop>, userId: nat, scope: Scope, i: nat)
    requires UniqueShopOwners(shops)
    requires i < |shops| && ShopMatches(shops[i], userId, scope)
    ensures FindShop(shops, userId, scope) == Some(i)
  {
  }

  /** Rewriting rows without touching their owners leaves every lookup as it was. */
  lemma FindFavSameOwners(rows: seq<FavRow>, rows': seq<FavRow>, userId: nat)
    requires |rows| == |rows'|
    requires forall j :: 0 <= j < |rows| ==> rows[j].userId == rows'[j].userId
    ensures FindFav(rows, userId) == FindFav(rows', userId)
  {
  }

  /** The lookup returns exactly the first row owned by the user. */
  lemma FindFavFirst(rows: seq<FavRow>, userId: nat, k: nat)
    requires k < |rows| && rows[k].userId == userId
    requires forall j :: 0 <= j < k ==> rows[j].userId != userId
    ensures FindFav(rows, userId) == Some(k)
  {
  }

  /** Appending a row changes only the lookup of an owner that had no row. */
  lemma FindFavAppend(rows: seq<FavRow>, row: FavRow, userId: nat)
    ensures FindFav(rows + [row], userId) ==
      match FindFav(rows, userId)
      case Some(i) => Some(i)
      case None => if row.userId == userId then Some(|rows|) else None
  {
    var rs := rows + [row];
    match FindFav(rows, userId)
    case Some(i) =>
      assert forall j :: 0 <= j < i ==> rs[j] == rows[j];
      FindFavFirst(rs, userId, i);
    case None =>
      assert forall j :: 0 <= j < |rows| ==> rs[j] == rows[j];
      if row.userId == userId {
        FindFavFirst(rs, userId, |rows|);
      }
  }

  /** A write that succeeds unless a fault is injected. */
  function Write<T>(fail: bool, v: T): (r: Result<T, DbError>)
    ensures r.Success? <==> !fail
    ensures r.Success? ==> r.value == v
  {
    if fail then Failure(WriteFailed) else Success(v)
  }

  /** The row `Create(&user)` inserts: the sequence's next ID, no optional fields. */
  function NewUser(s: Store, mobile: string, name: string, role: string): User {
    User(s.nextUserId, mobile, name, None, role, None, None)
  }

  /** `Create(&user)`; the mobile index covers soft-deleted rows. */
  function InsertUser(s: Store, mobile: string, name: string, role: string, fail: bool): (r: Result<Store, DbError>)
    ensures r.Success? <==> !fail && forall j :: 0 <= j < |s.users| ==> s.users[j].mobile != mobile
    ensures r.Success? ==> r.value.users == s.users + [NewUser(s, mobile, name, role)]
    ensures r.Success? ==> r.value.shops == s.shops && r.value.following == s.following && r.value.followers == s.followers
    ensures r.Success? && WellFormed(s) ==> WellFormed(r.value)
  {
    if fail then Failure(WriteFailed)
    else if exists j :: 0 <= j < |s.users| && s.users[j].mobile == mobile then Failure(UniqueViolation)
    else Success(s.(users := s.users + [NewUser(s, mobile, name, role)], nextUserId := s.nextUserId + 1))
  }

  /** `Save(&user)` of row i; a changed mobile may collide with another row. */
  function SaveUser(s: Store, i: nat, u: User, fail: bool): (r: Result<Store, DbError>)
    requires i < |s.users|
    ensures r.Success? <==> !fail && forall j :: 0 <= j < |s.users| && j != i ==> s.users[j].mobile != u.mobile
    ensures r.Success? ==> r.value == s.(users := s.users[i := u])
    ensures r.Success? && WellFormed(s) && u.id == s.users[i].id ==> WellFormed(r.value)
  {
    if fail then Failure(WriteFailed)
    else if exists j :: 0 <= j < |s.users| && j != i && s.users[j].mobile == u.mobile then Failure(UniqueViolation)
    else Success(s.(users := s.users[i := u]))
  }

  /** `Update("deleted_at", d)` on user row i: no indexed column changes. */
  function MarkUser(s: Store, i: nat, d: Option<Stamp>, fail: bool): (r: Result<Store, DbError>)
    requires i < |s.users|
    ensures r.Success? <==> !fail
    ensures r.Success? ==> r.value == s.(users := s.users[i := s.users[i].(deletedAt := d)])
    ensures r.Success? && WellFormed(s) ==> WellFormed(r.value)
  {
    Write(fail, s.(users := s.users[i := s.users[i].(deletedAt := d)]))
  }

  /** `Create(&shop)`; both the shop ID and the owner index cover soft-deleted rows. */
  function InsertShop(s: Store, shop: Shop, fail: bool): (r: Result<Store, DbError>)
    ensures r.Success? <==>
      && !fail
      && (forall j :: 0 <= j < |s.shops| ==> s.shops[j].shopId != shop.shopId)
      && (forall j :: 0 <= j < |s.shops| ==> s.shops[j].userId != shop.userId)
    ensures r.Success? ==> r.value == s.(shops := s.shops + [shop])
    ensures r.Success? && WellFormed(s) ==> WellFormed(r.value)
  {
    if fail then Failure(WriteFailed)
    else if exists j :: 0 <= j < |s.shops| && (s.shops[j].shopId == shop.shopId || s.shops[j].userId == shop.userId)
    then Failure(UniqueViolation)
    else Success(s.(shops := s.shops + [shop]))
  }

  /** `Save(&shop)` of row i. */
  function SaveShop(s: Store, i: nat, shop: Shop, fail: bool): (r: Result<Store, DbError>)
    requires i < |s.shops|
    ensures r.Success? <==>
      && !fail
      && (forall j :: 0 <= j < |s.shops| && j != i ==> s.shops[j].shopId != shop.shopId && s.shops[j].userId != shop.userId)
    ensures r.Success? ==> r.value == s.(shops := s.shops[i := shop])
    ensures r.Success? && WellFormed(s) ==> WellFormed(r.value)
  {
    if fail then Failure(WriteFailed)
    else if exists j :: 0 <= j < |s.shops| && j != i && (s.shops[j].shopId == shop.shopId || s.shops[j].userId == shop.userId)
    then Failure(UniqueViolation)
    else Success(s.(shops := s.shops[i := shop]))
  }

  /** `Update("deleted_at", d)` on shop row i. */
  function MarkShop(s: Store, i: nat, d: Option<Stamp>, fail: bool): (r: Result<Store, DbError>)
    requires i < |s.shops|
    ensures r.Success? <==> !fail
    ensures r.Success? ==> r.value == s.(shops := s.shops[i := s.shops[i].(deletedAt := d)])
    ensures r.Success? && WellFormed(s) ==> WellFormed(r.value)
  {
    Write(fail, s.(shops := s.shops[i := s.shops[i].(deletedAt := d)]))
  }

  /** `Create(&fav)` on a follow table; the owner index rejects a second row. */
  function InsertFav(rows: seq<FavRow>, row: FavRow, fail: bool): (r: Result<seq<FavRow>, DbError>)
    ensures r.Success? <==> !fail && forall j :: 0 <= j < |rows| ==> rows[j].userId != row.userId
    ensures r.Success? ==> r.value == rows + [row]
    ensures r.Success? && UniqueFavOwners(rows) ==> UniqueFavOwners(r.value)
  {
    if fail then Failure(WriteFailed)
    else if exists j :: 0 <= j < |rows| && rows[j].userId == row.userId then Failure(UniqueViolation)
    else Success(rows + [row])
  }

  /** `after` is `before` with, at most, the rows of user `id` re-marked `d`. */
  predicate UsersRemarked(before: seq<User>, after: seq<User>, id: nat, d: Option<Stamp>) {
    && |after| == |before|
    && forall k :: 0 <= k < |before| ==>
         after[k] == before[k] || (before[k].id == id && after[k] == before[k].(deletedAt := d))
  }

  /** `after` is `before` with, at most, the shops of owner `userId` re-marked `d`. */
  predicate ShopsRemarked(before: seq<Shop>, after: seq<Shop>, userId: nat, d: Option<Stamp>) {
    && |after| == |before|
    && forall k :: 0 <= k < |before| ==>
         after[k] == before[k] || (before[k].userId == userId && after[k] == before[k].(deletedAt := d))
  }
}

=== FILE: digits.dfy ===
/** Decimal digit strings: the `%d` formatting used to build cache keys, and the
    base-10 parsers `strconv.ParseUint(s, 10, 32)` (authorization middleware) and
    `strconv.Atoi` (cache configuration) on a 64-bit platform. */
module Digits {
  import opened Wrappers

  const MaxUint32: nat := 4294967295
  const MaxInt64: int := 9223372036854775807
  const MinInt64: int := -9223372036854775808

  predicate IsDigit(c: char) {
    '0' <= c <= '9'
  }

  predicate AllDigits(s: string) {
    forall i :: 0 <= i < |s| ==> IsDigit(s[i])
  }

  function DigitValue(c: char): (d: nat)
    requires IsDigit(c)
    ensures d < 10
  {
    c as int - '0' as int
  }

  function DigitChar(d: nat): (c: char)
    requires d < 10
    ensures IsDigit(c) && DigitValue(c) == d
  {
    ('0' as int + d) as char
  }

  /** The value of a string of digits, most significant digit first ("" is 0). */
  function Value(s: string): nat
    requires AllDigits(s)
  {
    if |s| == 0 then 0 else Value(s[..|s| - 1]) * 10 + DigitValue(s[|s| - 1])
  }

  /** `fmt.Sprintf("%d", n)` for an unsigned n: at least one digit and no leading zero. */
  function Decimal(n: nat): (s: string)
    ensures |s| >= 1 && AllDigits(s)
    ensures s[0] == '0' ==> n == 0 && s == "0"
    decreases n
  {
    if n < 10 then [DigitChar(n)] else Decimal(n / 10) + [DigitChar(n % 10)]
  }

  /** Reading back what `%d` wrote gives the number that was formatted. */
  lemma {:induction false} ValueOfDecimal(n: nat)
    ensures Value(Decimal(n)) == n
    decreases n
  {
    if n >= 10 {
      var s := Decimal(n);
      assert s[..|s| - 1] == Decimal(n / 10);
      ValueOfDecimal(n / 10);
    }
  }

  /** Distinct numbers format to distinct strings. */
  lemma DecimalInjective(a: nat, b: nat)
    ensures Decimal(a) == Decimal(b) ==> a == b
  {
    ValueOfDecimal(a);
    ValueOfDecimal(b);
  }

  /** A leading zero does not change the value of a digit string. */
  lemma {:induction false} ValueLeadingZero(s: string)
    requires AllDigits(s)
    ensures AllDigits(['0'] + s) && Value(['0'] + s) == Value(s)
    decreases |s|
  {
    var t := ['0'] + s;
    assert AllDigits(t);
    if |s| > 0 {
      assert t[..|t| - 1] == ['0'] + s[..|s| - 1];
      ValueLeadingZero(s[..|s| - 1]);
    }
  }

  /** `strconv.ParseUint(s, 10, 32)`: a non-empty run of ASCII digits (no sign, no
      base prefix, no underscore) whose value fits in 32 bits. */
  function ParseUint32(s: string): (r: Option<nat>)
    ensures r.Some? ==> r.value <= MaxUint32
    ensures s == "" ==> r.None?
    ensures (exists i :: 0 <= i < |s| && !IsDigit(s[i])) ==> r.None?
    ensures r.Some? ==> AllDigits(s) && r.value == Value(s)
    ensures |s| > 0 && AllDigits(s) && Value(s) <= MaxUint32 ==> r.Some?
  {
    if |s| > 0 && AllDigits(s) && Value(s) <= MaxUint32 then Some(Value(s)) else None
  }

  /** The 32-bit parser accepts exactly the formatted numbers that fit in 32 bits. */
  lemma ParseUint32Decimal(n: nat)
    ensures ParseUint32(Decimal(n)) == if n <= MaxUint32 then Some(n) else None
  {
    ValueOfDecimal(n);
  }

  /** `strconv.Atoi` with a 64-bit int: an optional '+' or '-', then a non-empty
      run of digits whose signed value lies in the int64 range. */
  function Atoi(s: string): (r: Option<int>)
    ensures r.Some? ==> MinInt64 <= r.value <= MaxInt64
    ensures s == "" || s == "+" || s == "-" ==> r.None?
    ensures |s| > 0 && AllDigits(s) && Value(s) <= MaxInt64 ==> r == Some(Value(s))
    ensures |s| > 1 && s[0] == '+' && AllDigits(s[1..]) && Value(s[1..]) <= MaxInt64 ==> r == Some(Value(s[1..]))
    ensures |s| > 1 && s[0] == '-' && AllDigits(s[1..]) && Value(s[1..]) <= MaxInt64 + 1 ==> r == Some(0 - Value(s[1..]))
    ensures |s| > 0 && (s[0] == '+' || s[0] == '-') && !AllDigits(s[1..]) ==> r.None?
  {
    var signed := |s| > 0 && (s[0] == '+' || s[0] == '-');
    var digits := if signed then s[1..] else s;
    if |digits| == 0 || !AllDigits(digits) then None
    else
      var v: int := if signed && s[0] == '-' then 0 - (Value(digits) as int) else Value(digits);
      if MinInt64 <= v <= MaxInt64 then Some(v) else None
  }

  /** `Atoi` reads back any formatted int64-range number. */
  lemma AtoiDecimal(n: nat)
    requires n <= MaxInt64
    ensures Atoi(Decimal(n)) == Some(n)
  {
    ValueOfDecimal(n);
  }
}

=== FILE: fav_deal.dfy ===
/** The follow ledger of `handlers/fav_deal.go`: one follow writes the target's
    mobile into the follower's `Fav1` row (following) and the follower's mobile
    into the target's `Fav2` row (followers), both inside one transaction. */
module FavDeal {
  import opened Wrappers
  import opened Models
  import opened Db
  import opened Http

  /** `FavDealRequest`; both fields are `binding:"required"`. */
  datatype FavRequest = FavRequest(currentMobile: string, targetMobile: string)

  predicate NoDuplicates(xs: seq<string>) {
    forall i, j :: 0 <= i < j < |xs| ==> xs[i] != xs[j]
  }

  /** A follow row's count equals its list length, and the list repeats no mobile. */
  predicate RowOk(row: FavRow) {
    row.count == |row.list| && NoDuplicates(row.list)
  }

  predicate RowsOk(rows: seq<FavRow>) {
    forall i :: 0 <= i < |rows| ==> RowOk(rows[i])
  }

  predicate LedgerOk(s: Store) {
    RowsOk(s.following) && RowsOk(s.followers)
  }

  /** The two tables are two views of one edge set: B's mobile is in A's following
      list exactly when A's mobile is in B's followers list. */
  predicate Mutual(s: Store) {
    forall i, j :: 0 <= i < |s.users| && 0 <= j < |s.users| ==>
      (s.users[j].mobile in ListOf(s.following, s.users[i].id) <==>
       s.users[i].mobile in ListOf(s.followers, s.users[j].id))
  }

  /** `updateFav1` and `updateFav2` (the same code over the same row shape): create
      the user's row holding just `mobile`, or append `mobile` to it unless already
      present. Only the create or the save can fail; the no-op path writes nothing. */
  function UpdateFav(rows: seq<FavRow>, userId: nat, mobile: string, fail: bool): (r: Result<seq<FavRow>, DbError>)
    ensures mobile in ListOf(rows, userId) ==> r == Success(rows)
    ensures r.Failure? <==> fail && mobile !in ListOf(rows, userId)
  {
    match FindFav(rows, userId)
    case None => InsertFav(rows, FavRow(userId, 1, [mobile]), fail)
    case Some(i) =>
      if mobile in rows[i].list then Success(rows)
      else Write(fail, rows[i := FavRow(userId, rows[i].count + 1, rows[i].list + [mobile])])
  }

  /** What a successful update does: the user's list gains `mobile` at its end (and
      its count one) unless it already held it; every other user's row reads the same.
      A user without a row gets one with count 1 and list [mobile]. */
  lemma UpdateFavEffect(rows: seq<FavRow>, userId: nat, mobile: string, fail: bool)
    requires UpdateFav(rows, userId, mobile, fail).Success?
    ensures var rows' := UpdateFav(rows, userId, mobile, fail).value;
      var added := mobile !in ListOf(rows, userId);
      && ListOf(rows', userId) == ListOf(rows, userId) + (if added then [mobile] else [])
      && CountOf(rows', userId) == CountOf(rows, userId) + (if added then 1 else 0)
      && (forall u :: u != userId ==> ListOf(rows', u) == ListOf(rows, u) && CountOf(rows', u) == CountOf(rows, u))
  {
    var rows' := UpdateFav(rows, userId, mobile, fail).value;
    match FindFav(rows, userId)
    case None =>
      var row := FavRow(userId, 1, [mobile]);
      assert rows' == rows + [row];
      FindFavAppend(rows, row, userId);
      forall u | u != userId
        ensures ListOf(rows', u) == ListOf(rows, u) && CountOf(rows', u) == CountOf(rows, u)
      {
        FindFavAppend(rows, row, u);
        match FindFav(rows, u)
        case None =>
        case Some(k) => assert rows'[k] == rows[k];
      }
    case Some(i) =>
      if mobile !in rows[i].list {
        forall u
          ensures FindFav(rows', u) == FindFav(rows, u)
        {
          FindFavSameOwners(rows, rows', u);
        }
      }
  }

  /** Updates keep every row's count equal to its length and free of duplicates,
      and keep one row per user. */
  lemma UpdateFavKeepsRows(rows: seq<FavRow>, userId: nat, mobile: string, fail: bool)
    requires RowsOk(rows) && UniqueFavOwners(rows)
    requires UpdateFav(rows, userId, mobile, fail).Success?
    ensures RowsOk(UpdateFav(rows, userId, mobile, fail).value)
    ensures UniqueFavOwners(UpdateFav(rows, userId, mobile, fail).value)
  {
    var rows' := UpdateFav(rows, userId, mobile, fail).value;
    match FindFav(rows, userId)
    case None =>
      assert rows' == rows + [FavRow(userId, 1, [mobile])];
    case Some(i) =>
      if mobile !in rows[i].list {
        var row := rows'[i];
        assert row.list == rows[i].list + [mobile];
        assert NoDuplicates(row.list) by {
          forall a, b | 0 <= a < b < |row.list| ensures row.list[a] != row.list[b] {
            if b == |row.list| - 1 {
              assert row.list[a] == rows[i].list[a];
            }
          }
        }
      }
  }

  /** `HandleFav`: validate, find both users under the default scope, update both
      rows in one transaction, and commit; any failure rolls both updates back. */
  function HandleFav(s: Store, req: FavRequest, faults: set<Step>): (r: Reply)
    ensures r.resp.status != OK ==> r.store == s
    ensures r.store.users == s.users && r.store.shops == s.shops && r.store.nextUserId == s.nextUserId
    ensures r.resp.status in {OK, BadRequest, NotFound, InternalServerError}
    ensures r.resp.status == BadRequest <==> req.currentMobile == "" || req.targetMobile == ""
    ensures r.resp.status == NotFound <==>
      && req.currentMobile != "" && req.targetMobile != ""
      && (!HasUser(s.users, req.currentMobile, Scoped) || !HasUser(s.users, req.targetMobile, Scoped))
    ensures r.resp.status == InternalServerError ==> faults != {}
    ensures r.resp.status == InternalServerError <==>
      && req.currentMobile != "" && req.targetMobile != ""
      && HasUser(s.users, req.currentMobile, Scoped) && HasUser(s.users, req.targetMobile, Scoped)
      && (|| (WriteFollowing in faults && req.targetMobile !in ListOf(s.following, LookupUser(s.users, req.currentMobile, Scoped).value.id))
          || (WriteFollowers in faults && req.currentMobile !in ListOf(s.followers, LookupUser(s.users, req.targetMobile, Scoped).value.id))
          || Commit in faults)
    ensures r.resp.status == OK ==>
      && LookupUser(s.users, req.currentMobile, Scoped).Some?
      && LookupUser(s.users, req.targetMobile, Scoped).Some?
      && req.targetMobile in ListOf(r.store.following, LookupUser(s.users, req.currentMobile, Scoped).value.id)
      && req.currentMobile in ListOf(r.store.followers, LookupUser(s.users, req.targetMobile, Scoped).value.id)
  {
    if req.currentMobile == "" || req.targetMobile == "" then Abort(s, BadRequest)
    else match FindUser(s.users, req.currentMobile, Scoped)
      case None => Abort(s, NotFound)
      case Some(ia) =>
        match FindUser(s.users, req.targetMobile, Scoped)
        case None => Abort(s, NotFound)
        case Some(ib) =>
          match UpdateFav(s.following, s.users[ia].id, req.targetMobile, WriteFollowing in faults)
          case Failure(_) => Abort(s, InternalServerError)
          case Success(following) =>
            UpdateFavEffect(s.following, s.users[ia].id, req.targetMobile, WriteFollowing in faults);
            match UpdateFav(s.followers, s.users[ib].id, req.currentMobile, WriteFollowers in faults)
            case Failure(_) => Abort(s, InternalServerError)
            case Success(followers) =>
              UpdateFavEffect(s.followers, s.users[ib].id, req.currentMobile, WriteFollowers in faults);
              if Commit in faults then Abort(s, InternalServerError)
              else Reply(Response(OK, Message), s.(following := following, followers := followers))
  }

  /** The users a successful follow acts on: the first active rows with the two mobiles. */
  lemma HandleFavUsers(s: Store, req: FavRequest, faults: set<Step>)
    requires HandleFav(s, req, faults).resp.status == OK
    ensures FindUser(s.users, req.currentMobile, Scoped).Some? && FindUser(s.users, req.targetMobile, Scoped).Some?
    ensures var a := s.users[FindUser(s.users, req.currentMobile, Scoped).value];
      var b := s.users[FindUser(s.users, req.targetMobile, Scoped).value];
      var r := HandleFav(s, req, faults);
      && UpdateFav(s.following, a.id, req.targetMobile, WriteFollowing in faults) == Success(r.store.following)
      && UpdateFav(s.followers, b.id, req.currentMobile, WriteFollowers in faults) == Success(r.store.followers)
  {
  }

  /** Repeating a follow that succeeded leaves both tables exactly as they are,
      whatever fails during the repetition. */
  lemma HandleFavIdempotent(s: Store, req: FavRequest, faults: set<Step>, faults': set<Step>)
    requires HandleFav(s, req, faults).resp.status == OK
    ensures var s1 := HandleFav(s, req, faults).store;
      HandleFav(s1, req, faults').store == s1
  {
    var s1 := HandleFav(s, req, faults).store;
    HandleFavUsers(s, req, faults);
    var ia := FindUser(s.users, req.currentMobile, Scoped).value;
    var ib := FindUser(s.users, req.targetMobile, Scoped).value;
    UpdateFavEffect(s.following, s.users[ia].id, req.targetMobile, WriteFollowing in faults);
    UpdateFavEffect(s.followers, s.users[ib].id, req.currentMobile, WriteFollowers in faults);
    assert UpdateFav(s1.following, s.users[ia].id, req.targetMobile, WriteFollowing in faults') == Success(s1.following);
    assert UpdateFav(s1.followers, s.users[ib].id, req.currentMobile, WriteFollowers in faults') == Success(s1.followers);
  }

  /** A follow keeps every row's count equal to its list length, keeps lists free
      of duplicates, and keeps one row per user in each table. */
  lemma HandleFavKeepsLedger(s: Store, req: FavRequest, faults: set<Step>)
    requires LedgerOk(s) && WellFormed(s)
    ensures LedgerOk(HandleFav(s, req, faults).store)
    ensures WellFormed(HandleFav(s, req, faults).store)
  {
    var r := HandleFav(s, req, faults);
    if r.resp.status == OK {
      HandleFavUsers(s, req, faults);
      var ia := FindUser(s.users, req.currentMobile, Scoped).value;
      var ib := FindUser(s.users, req.targetMobile, Scoped).value;
      UpdateFavKeepsRows(s.following, s.users[ia].id, req.targetMobile, WriteFollowing in faults);
      UpdateFavKeepsRows(s.followers, s.users[ib].id, req.currentMobile, WriteFollowers in faults);
    }
  }

  /** Recording the edge from user ia to user ib in both tables keeps them
      mutually consistent, under the store's indexes. */
  lemma MutualAfterEdge(s: Store, ia: nat, ib: nat, following: seq<FavRow>, followers: seq<FavRow>, f1: bool, f2: bool)
    requires WellFormed(s) && Mutual(s)
    requires ia < |s.users| && ib < |s.users|
    requires UpdateFav(s.following, s.users[ia].id, s.users[ib].mobile, f1) == Success(following)
    requires UpdateFav(s.followers, s.users[ib].id, s.users[ia].mobile, f2) == Success(followers)
    ensures Mutual(s.(following := following, followers := followers))
  {
    var a := s.users[ia];
    var b := s.users[ib];
    UpdateFavEffect(s.following, a.id, b.mobile, f1);
    UpdateFavEffect(s.followers, b.id, a.mobile, f2);
    forall i, j | 0 <= i < |s.users| && 0 <= j < |s.users|
      ensures s.users[j].mobile in ListOf(following, s.users[i].id) <==>
              s.users[i].mobile in ListOf(s.followers, s.users[j].id) || (i == ia && j == ib)
      ensures s.users[i].mobile in ListOf(followers, s.users[j].id) <==>
              s.users[i].mobile in ListOf(s.followers, s.users[j].id) || (i == ia && j == ib)
    {
      assert s.users[i].id == a.id <==> i == ia;
      assert s.users[j].id == b.id <==> j == ib;
      assert s.users[j].mobile == b.mobile <==> j == ib;
      assert s.users[i].mobile == a.mobile <==> i == ia;
    }
  }

  /** Under the store's indexes a follow keeps the two tables mutually consistent. */
  lemma HandleFavKeepsMutual(s: Store, req: FavRequest, faults: set<Step>)
    requires WellFormed(s) && Mutual(s)
    ensures Mutual(HandleFav(s, req, faults).store)
  {
    var r := HandleFav(s, req, faults);
    if r.resp.status == OK {
      HandleFavUsers(s, req, faults);
      var ia := FindUser(s.users, req.currentMobile, Scoped).value;
      var ib := FindUser(s.users, req.targetMobile, Scoped).value;
      MutualAfterEdge(s, ia, ib, r.store.following, r.store.followers, WriteFollowing in faults, WriteFollowers in faults);
      assert r.store == s.(following := r.store.following, followers := r.store.followers);
    }
  }

  /** No follow is ever lost: each user's lists only grow at their end. */
  lemma HandleFavOnlyAppends(s: Store, req: FavRequest, faults: set<Step>, u: nat)
    ensures var r := HandleFav(s, req, faults);
      && ListOf(s.following, u) <= ListOf(r.store.following, u)
      && ListOf(s.followers, u) <= ListOf(r.store.followers, u)
  {
    var r := HandleFav(s, req, faults);
    if r.resp.status == OK {
      HandleFavUsers(s, req, faults);
      var ia := FindUser(s.users, req.currentMobile, Scoped).value;
      var ib := FindUser(s.users, req.targetMobile, Scoped).value;
      UpdateFavEffect(s.following, s.users[ia].id, req.targetMobile, WriteFollowing in faults);
      UpdateFavEffect(s.followers, s.users[ib].id, req.currentMobile, WriteFollowers in faults);
    }
  }

  /** Atomicity under an injected failure of the second write: if the followers
      row needs a write and that write fails, neither table changes. */
  lemma FollowersFailureRollsBack(s: Store, req: FavRequest, faults: set<Step>)
    requires WriteFollowers in faults
    requires LookupUser(s.users, req.targetMobile, Scoped).Some?
    requires req.currentMobile !in ListOf(s.followers, LookupUser(s.users, req.targetMobile, Scoped).value.id)
    ensures HandleFav(s, req, faults).resp.status != OK
    ensures HandleFav(s, req, faults).store == s
  {
  }

  /** There is no self-follow check: following oneself puts one's own mobile in
      both of one's own lists. */
  lemma SelfFollowAccepted(s: Store, mobile: string)
    requires mobile != "" && HasUser(s.users, mobile, Scoped)
    ensures var r := HandleFav(s, FavRequest(mobile, mobile), {});
      var u := LookupUser(s.users, mobile, Scoped).value;
      r.resp.status == OK && mobile in ListOf(r.store.following, u.id) && mobile in ListOf(r.store.followers, u.id)
  {
  }
}

=== FILE: http.dfy ===
/** What a handler answers (status code and payload) and the environment it runs
    in: the authenticated ID set by the middleware, the clock, and the injected
    failures of the store, the token signer and the cache. */
module Http {
  import opened Wrappers
  import opened Models

  datatype Status = OK | Created | BadRequest | Unauthorized | Forbidden | NotFound | Conflict | InternalServerError

  /** The JSON body, reduced to the record it carries; error texts and tokens are abstract. */
  datatype Payload =
    | Message
    | UserBody(user: User)
    | ShopBody(shop: Shop)
    | FavsBody(favs: FavRow)
    | ExistsBody(present: bool, existing: Option<User>)

  datatype Response = Response(status: Status, payload: Payload)

  /** A handler's answer together with the store it leaves behind. */
  datatype Reply = Reply(resp: Response, store: Store)

  /** The store writes a handler issues; a step in `Env.faults` fails. */
  datatype Step = WriteUser | WriteShop | WriteFollowing | WriteFollowers | Commit

  /** `auth` is the `user_id` the middleware set (`None` when absent), `now` the
      clock, `signerUp` whether token signing succeeds, `cacheUp` whether Redis answers. */
  datatype Env = Env(auth: Option<nat>, now: Stamp, faults: set<Step>, signerUp: bool, cacheUp: bool)

  /** An error answer that leaves the store as it was (no write, or a rollback). */
  function Abort(s: Store, status: Status): (r: Reply)
    ensures r.store == s && r.resp.status == status
  {
    Reply(Response(status, Message), s)
  }

  /** `tx.Commit()`: success answers `status` with `body` and keeps the
      transaction's store; a failed commit answers 500 and keeps the old store. */
  function CommitReply(s: Store, s': Store, env: Env, status: Status, body: Payload): (r: Reply)
    ensures r.store == s || r.store == s'
    ensures r.resp.status == status || r.resp.status == InternalServerError
    ensures Step.Commit !in env.faults ==> r == Reply(Response(status, body), s')
    ensures Step.Commit in env.faults ==> r == Abort(s, InternalServerError)
  {
    if Step.Commit in env.faults then Abort(s, InternalServerError) else Reply(Response(status, body), s')
  }
}

=== FILE: middleware_auth.dfy ===
/** `AuthMiddleware`: the `Authorization` header must be `Bearer <id>` where the
    credential is a bare base-10 user ID of at most 32 bits. The scheme name is
    the one of section 2.1 of RFC 6750, matched case-sensitively; the credential
    is not a token and nothing verifies it. */
module AuthMiddleware {
  import opened Wrappers
  import opened Digits

  const Scheme: string := "Bearer"

  /** Why a header is refused; each answers 401 and aborts the request. */
  datatype AuthError = MissingHeader | InvalidFormat | InvalidUserId

  /** Reassembles parts with one separator between neighbours. */
  function Join(parts: seq<string>, sep: char): string
    requires |parts| >= 1
  {
    if |parts| == 1 then parts[0] else parts[0] + [sep] + Join(parts[1..], sep)
  }

  /** `strings.Split(s, string(sep))`: the pieces between single separators, so n
      separators give n + 1 pieces and neighbouring separators give an empty piece. */
  function Split(s: string, sep: char): (parts: seq<string>)
    ensures |parts| >= 1
    ensures forall i :: 0 <= i < |parts| ==> sep !in parts[i]
    ensures Join(parts, sep) == s
  {
    if |s| == 0 then [""]
    else
      var rest := Split(s[1..], sep);
      if s[0] == sep then
        assert ([""] + rest)[1..] == rest;
        [""] + rest
      else
        var parts := [[s[0]] + rest[0]] + rest[1..];
        assert |rest| > 1 ==> parts[1..] == rest[1..];
        parts
  }

  /** A piece free of separators splits to itself. */
  lemma {:induction false} SplitNoSeparator(s: string, sep: char)
    requires sep !in s
    ensures Split(s, sep) == [s]
    decreases |s|
  {
    if |s| > 0 {
      SplitNoSeparator(s[1..], sep);
      assert [s[0]] + s[1..] == s;
    }
  }

  /** A leading separator-free word is split off as the first piece. */
  lemma {:induction false} SplitFirstWord(w: string, sep: char, rest: string)
    requires sep !in w
    ensures Split(w + [sep] + rest, sep) == [w] + Split(rest, sep)
    decreases |w|
  {
    var s := w + [sep] + rest;
    if |w| == 0 {
      assert s[1..] == rest;
    } else {
      assert s[1..] == w[1..] + [sep] + rest;
      SplitFirstWord(w[1..], sep, rest);
      assert [w[0]] + w[1..] == w;
    }
  }

  /** The header splits into exactly `Bearer` and one more piece iff it is
      "Bearer " followed by a space-free credential. */
  lemma TwoPartsIff(h: string)
    ensures var parts := Split(h, ' ');
      (|parts| == 2 && parts[0] == Scheme) <==>
      (|h| >= 7 && h[..7] == Scheme + " " && ' ' !in h[7..])
  {
    var parts := Split(h, ' ');
    if |parts| == 2 && parts[0] == Scheme {
      assert Join(parts, ' ') == Scheme + " " + parts[1];
      assert h[7..] == parts[1];
    }
    if |h| >= 7 && h[..7] == Scheme + " " && ' ' !in h[7..] {
      assert h == Scheme + [' '] + h[7..];
      SplitFirstWord(Scheme, ' ', h[7..]);
      SplitNoSeparator(h[7..], ' ');
    }
  }

  /** The middleware's decision: the `user_id` it sets, or why it aborts. */
  function Authenticate(header: string): (r: Result<nat, AuthError>)
    ensures header == "" <==> r == Failure(MissingHeader)
    ensures r.Success? ==> r.value <= MaxUint32
  {
    if header == "" then Failure(MissingHeader)
    else
      var parts := Split(header, ' ');
      if |parts| != 2 || parts[0] != Scheme then Failure(InvalidFormat)
      else match ParseUint32(parts[1])
        case None => Failure(InvalidUserId)
        case Some(id) => Success(id)
  }

  /** Accepted headers are exactly "Bearer " followed by a non-empty run of digits
      of value at most 2^32 - 1; the ID set is that value. */
  lemma AcceptedIff(h: string, id: nat)
    ensures Authenticate(h) == Success(id) <==>
      |h| > 7 && h[..7] == Scheme + " " && AllDigits(h[7..]) && Value(h[7..]) == id && id <= MaxUint32
  {
    TwoPartsIff(h);
    var parts := Split(h, ' ');
    if |h| > 7 && h[..7] == Scheme + " " && AllDigits(h[7..]) {
      assert ' ' !in h[7..] by {
        forall i | 0 <= i < |h[7..]| ensures h[7..][i] != ' ' {
          assert IsDigit(h[7..][i]);
        }
      }
    }
    if |parts| == 2 && parts[0] == Scheme {
      assert parts[1] == h[7..] by {
        assert Join(parts, ' ') == Scheme + " " + parts[1];
      }
    }
  }

  /** Formatting an ID into the header and authenticating gives the ID back. */
  lemma BearerRoundTrip(id: nat)
    requires id <= MaxUint32
    ensures Authenticate(Scheme + " " + Decimal(id)) == Success(id)
  {
    var h := Scheme + " " + Decimal(id);
    assert h[7..] == Decimal(id);
    ValueOfDecimal(id);
    AcceptedIff(h, id);
  }

  /** An ID above 32 bits is refused as an invalid user ID. */
  lemma OverflowRefused(id: nat)
    requires id > MaxUint32
    ensures Authenticate(Scheme + " " + Decimal(id)) == Failure(InvalidUserId)
  {
    var h := Scheme + " " + Decimal(id);
    assert h[..7] == Scheme + " " && h[7..] == Decimal(id);
    TwoPartsIff(h);
    assert ' ' !in Decimal(id) by {
      forall i | 0 <= i < |Decimal(id)| ensures Decimal(id)[i] != ' ' {
        assert IsDigit(Decimal(id)[i]);
      }
    }
    assert Split(h, ' ')[1] == Decimal(id) by {
      assert Join(Split(h, ' '), ' ') == Scheme + " " + Split(h, ' ')[1];
    }
    ParseUint32Decimal(id);
  }

  /** Leading zeros are ignored: "Bearer 007" authenticates as user 7. */
  lemma LeadingZerosIgnored()
    ensures Authenticate("Bearer 007") == Success(7)
  {
    var h := "Bearer 007";
    assert h[..7] == Scheme + " " && h[7..] == ['0'] + (['0'] + "7");
    ValueLeadingZero("7");
    ValueLeadingZero(['0'] + "7");
    assert Value("7") == 7 by { assert "7"[..0] == ""; }
    AcceptedIff(h, 7);
  }

  /** The scheme is case-sensitive, and a doubled space or a third word is refused. */
  lemma MalformedRefused()
    ensures Authenticate("bearer 7") == Failure(InvalidFormat)
    ensures Authenticate("Bearer  7") == Failure(InvalidFormat)
    ensures Authenticate("Bearer 7 8") == Failure(InvalidFormat)
  {
    TwoPartsIff("bearer 7");
    assert "bearer 7"[..7] != Scheme + " " by { assert "bearer 7"[0] != (Scheme + " ")[0]; }
    TwoPartsIff("Bearer  7");
    assert ' ' in "Bearer  7"[7..] by { assert "Bearer  7"[7..][0] == ' '; }
    TwoPartsIff("Bearer 7 8");
    assert ' ' in "Bearer 7 8"[7..] by { assert "Bearer 7 8"[7..][1] == ' '; }
  }

  /** An empty credential or a signed one is an invalid user ID. */
  lemma BadCredentialRefused(c: string)
    requires c == "" || c == "+7"
    ensures Authenticate(Scheme + " " + c) == Failure(InvalidUserId)
  {
    CredentialOf(c);
    assert ParseUint32(c).None? by {
      if c != "" { assert !IsDigit(c[0]); }
    }
  }

  /** "Bearer " followed by a space-free credential hands exactly that credential to the parser. */
  lemma CredentialOf(c: string)
    requires ' ' !in c
    ensures Split(Scheme + " " + c, ' ') == [Scheme, c]
  {
    assert Scheme + " " + c == Scheme + [' '] + c;
    SplitFirstWord(Scheme, ' ', c);
    SplitNoSeparator(c, ' ');
  }
}

=== FILE: models.dfy ===
/** The rows of the relational store (`User`, `Shop`, `Fav1`, `Fav2`) and the
    uniqueness indexes declared on them, stated as store invariants. */
module Models {
  import opened Wrappers

  /** A logical clock reading: soft-delete marks and cache expiry use it. */
  type Stamp = int

  const Buyer: string := "buyer"
  const Seller: string := "seller"

  /** A user row. `deletedAt` is gorm's soft-delete column: `None` means active. */
  datatype User = User(
    id: nat,
    mobile: string,
    name: string,
    email: Option<string>,
    role: string,
    photo: Option<string>,
    deletedAt: Option<Stamp>)
  {
    predicate Active() { deletedAt.None? }
  }

  /** A shop row, owned by the user whose ID is `userId`. */
  datatype Shop = Shop(
    shopId: string,
    name: string,
    username: string,
    bio: Option<string>,
    productType: string,
    location: Option<string>,
    photo: Option<string>,
    userId: nat,
    deletedAt: Option<Stamp>)
  {
    predicate Active() { deletedAt.None? }
  }

  /** A row of either follow table: `Fav1` (mobiles the user follows) and `Fav2`
      (mobiles following the user) have this one shape, a count and a list. */
  datatype FavRow = FavRow(userId: nat, count: int, list: seq<string>)

  /** The whole store; each table is kept in primary-key order, and
      `nextUserId` is the next value of the user ID sequence. */
  datatype Store = Store(
    users: seq<User>,
    shops: seq<Shop>,
    following: seq<FavRow>,
    followers: seq<FavRow>,
    nextUserId: nat)

  /** Primary keys of users are distinct and below the sequence's next value. */
  predicate UserIdsFresh(s: Store) {
    && (forall i :: 0 <= i < |s.users| ==> s.users[i].id < s.nextUserId)
    && (forall i, j :: 0 <= i < |s.users| && 0 <= j < |s.users| && i != j ==> s.users[i].id != s.users[j].id)
  }

  /** `uniqueIndex` on `User.MobileNumber`: it covers soft-deleted rows too. */
  predicate UniqueMobiles(users: seq<User>) {
    forall i, j :: 0 <= i < |users| && 0 <= j < |users| && i != j ==> users[i].mobile != users[j].mobile
  }

  /** `uniqueIndex` on `Shop.ShopID`. */
  predicate UniqueShopIds(shops: seq<Shop>) {
    forall i, j :: 0 <= i < |shops| && 0 <= j < |shops| && i != j ==> shops[i].shopId != shops[j].shopId
  }

  /** `uniqueIndex` on `Shop.UserID`: at most one shop per user. */
  predicate UniqueShopOwners(shops: seq<Shop>) {
    forall i, j :: 0 <= i < |shops| && 0 <= j < |shops| && i != j ==> shops[i].userId != shops[j].userId
  }

  /** `uniqueIndex` on `Fav1.UserID` and on `Fav2.UserID`: one row per user. */
  predicate UniqueFavOwners(rows: seq<FavRow>) {
    forall i, j :: 0 <= i < |rows| && 0 <= j < |rows| && i != j ==> rows[i].userId != rows[j].userId
  }

  /** Everything the store's indexes guarantee. */
  predicate WellFormed(s: Store) {
    && UserIdsFresh(s)
    && UniqueMobiles(s.users)
    && UniqueShopIds(s.shops)
    && UniqueShopOwners(s.shops)
    && UniqueFavOwners(s.following)
    && UniqueFavOwners(s.followers)
  }
}

=== FILE: wrappers.dfy ===
/** Failure-compatible wrappers shared by every module of the model. */
module Wrappers {

  /** A value that may be absent: a nil reference, a missing row, a missing header. */
  datatype Option<+T> = None | Some(value: T)

  /** The outcome of an operation that returns either a value or an error. */
  datatype Result<+T, +E> = Success(value: T) | Failure(error: E)
}
